=== FILE: README.md ===
# Evolving multiplicative persistence, modelled in Dafny

The program searches for integers with high multiplicative persistence
(OEIS A003001). The persistence of `n` is the number of times `n` can be
replaced by the product of its decimal digits before it drops to a single
digit. The search starts from a random founder genome of digits 1..9. It
fills a population with mutants of the founder, then repeats a fixed number
of rounds: rank by score (stable, best first), keep the best few survivors,
and refill the population with mutants of each survivor. A mutant comes from
a point pass, which may replace each digit by a different one, followed by
an indel pass. The indel pass walks the buffer left to right, and an event
at position `i` deletes or doubles the character there. After a deletion the
character that moves into `i` is skipped; after a doubling the original
character is examined again and may be doubled once more. A round whose
leader scores above the best score reported so far (`betterMP`, which starts
at 0) reports that leader as a new record. The run ends with the best
individual and a step-by-step breakdown of its persistence.

The model has one module per part of the program:

- `Outcomes`: `Option`, `Result`, and the failures a run can end in:
  draws exhausted, `new BigInteger("")`, and a bad configuration.
- `Decimal`: decimal digits and their values, `String.valueOf`,
  `new BigInteger(s)` for digit strings, and Java `short` wrap-around.
- `Evaluator`: `persistence`, with the digit-product descent that makes it
  terminate.
- `Explanation`: `explain`, the textual breakdown, built by appending to a
  buffer just as the program does.
- `Individuals`: the `Individual` value (genome `s`, cached score `mp`) and
  its `toString`.
- `Ranking`: the `SortDescByMP` comparator and the stable descending sort it
  drives.
- `Rng`: the random generator, as a class holding the draws it will hand
  out.
- `Mutation`: `getReplacementDigit`, `getMutant` (point pass and indel pass
  over a buffer) and `getStart`.
- `Evolution`: the constructor's generation loop and `main`'s configuration
  guard.

The loops of the program (`persistence`, `explain`, both mutation passes,
`getStart`, the refill and the round loop) are methods with loop
invariants. The methods up to and including `getMutant` and `getStart` are
proved equal to functions that specify them, including the draws they
consume, and the properties are proved about those functions as lemmas. The
generation loop is specified by predicates instead: a refilled generation
keeps the best survivors in stable order, and every other member is a mutant
of its progenitor (a result `getMutant` yields for some draws). Its records are
proved equal to a function of the rounds' leaders, and a run's whole history
(founder, generations, leaders) is given back as ghost output.

## Model

| member | source | states |
|---|---|---|
| Decimal.ShortWrap | src/main/java/nl/joerivandervelde/emp/EvolvingMultiplicativePersistence.java:168-175 | the `short` counter's value is congruent to the mathematical count modulo 2^16 and equals it while it is in range |
| Decimal.ShortWrapSucc | src/main/java/nl/joerivandervelde/emp/EvolvingMultiplicativePersistence.java:175 | `result++` on a wrapped counter equals wrapping the incremented count |
| Decimal.ValueOfDigits | src/main/java/nl/joerivandervelde/emp/EvolvingMultiplicativePersistence.java:171-172 | the decimal digits of `n` denote `n` |
| Decimal.DigitsOfValue | src/main/java/nl/joerivandervelde/emp/EvolvingMultiplicativePersistence.java:136 | a digit sequence with a non-zero lead digit is exactly the decimal digits of its value |
| Decimal.ParseNat | src/main/java/nl/joerivandervelde/emp/EvolvingMultiplicativePersistence.java:136 | `new BigInteger(s)` for unsigned text of ASCII digits '0'..'9' succeeds exactly when the text is non-empty and all such digits |
| Decimal.ParseNatToString | src/main/java/nl/joerivandervelde/emp/EvolvingMultiplicativePersistence.java:171-172 | parsing `String.valueOf(n)` gives back `n` |
| Decimal.NatToStringOfParse | src/main/java/nl/joerivandervelde/emp/EvolvingMultiplicativePersistence.java:95 | rendering a parsed digit string without a leading zero gives back the string |
| Decimal.IntToStringInjective | src/main/java/nl/joerivandervelde/emp/Individual.java:27-28 | distinct integers render differently |
| Evaluator.DigitProductLess | src/main/java/nl/joerivandervelde/emp/EvolvingMultiplicativePersistence.java:169-176 | for `n > 9` the product of the digits of `n` is below `n`, so the loop terminates |
| Evaluator.DigitProductAtMost | src/main/java/nl/joerivandervelde/emp/EvolvingMultiplicativePersistence.java:170-174 | the digit product of a positive number never exceeds it |
| Evaluator.ProductWithZero | src/main/java/nl/joerivandervelde/emp/EvolvingMultiplicativePersistence.java:172 | a zero digit makes the product zero |
| Evaluator.Persistence | src/main/java/nl/joerivandervelde/emp/EvolvingMultiplicativePersistence.java:167-178 | persistence is 0 exactly when `n <= 9` |
| Evaluator.Trajectory | src/main/java/nl/joerivandervelde/emp/EvolvingMultiplicativePersistence.java:169-176 | the values `n` takes: one more than the persistence, starting at `n`, ending at a single digit |
| Evaluator.TrajectoryStep | src/main/java/nl/joerivandervelde/emp/EvolvingMultiplicativePersistence.java:169-176 | each value of the trajectory except the last is above 9, and the next one is its digit product |
| Evaluator.ComputePersistence | src/main/java/nl/joerivandervelde/emp/EvolvingMultiplicativePersistence.java:167-178 | the loop returns the persistence, wrapped to a `short` |
| Evaluator.DigitProductOfText | src/main/java/nl/joerivandervelde/emp/EvolvingMultiplicativePersistence.java:170-173 | multiplying the digit characters of `String.valueOf(n)` one by one gives the digit product |
| Evaluator.PersistenceOfNine | src/main/java/nl/joerivandervelde/emp/EvolvingMultiplicativePersistence.java:167-178 | persistence(9) = 0 |
| Evaluator.PersistenceOfNinetyNine | src/main/java/nl/joerivandervelde/emp/EvolvingMultiplicativePersistence.java:167-178 | persistence(99) = 2 |
| Evaluator.PersistenceOfSeventySeven | src/main/java/nl/joerivandervelde/emp/EvolvingMultiplicativePersistence.java:167-178 | persistence(77) = 4 |
| Explanation.SpelledIsJoinedThenTimes | src/main/java/nl/joerivandervelde/emp/EvolvingMultiplicativePersistence.java:194-198 | appending each digit and " x ", then deleting the last three characters, joins the digits with " x " |
| Explanation.StepsCount | src/main/java/nl/joerivandervelde/emp/EvolvingMultiplicativePersistence.java:191-202 | the breakdown has exactly as many step lines as the persistence |
| Explanation.StepAt | src/main/java/nl/joerivandervelde/emp/EvolvingMultiplicativePersistence.java:190-202 | step line `j` is labelled with the wrapped counter plus one and multiplies the `j`-th value of the trajectory |
| Explanation.ExplainMatchesPersistence | src/main/java/nl/joerivandervelde/emp/EvolvingMultiplicativePersistence.java:186-204 | the lines are labelled `MP 1` .. `MP k`, with `k` the persistence, and line `j` multiplies the `j`-th trajectory value |
| Explanation.Explain | src/main/java/nl/joerivandervelde/emp/EvolvingMultiplicativePersistence.java:186-204 | the built text is the header followed by the step lines of the breakdown |
| Explanation.AppendStep | src/main/java/nl/joerivandervelde/emp/EvolvingMultiplicativePersistence.java:192-200 | one pass of the inner loop appends the step line and returns the digit product |
| Explanation.CloseStep | src/main/java/nl/joerivandervelde/emp/EvolvingMultiplicativePersistence.java:198-199 | deleting the trailing " x " and appending " = " with the product completes the step line |
| Explanation.BreakdownOf277 | src/main/java/nl/joerivandervelde/emp/EvolvingMultiplicativePersistence.java:186-204 | the breakdown of 277 is the header and the four lines 2 x 7 x 7 = 98, 9 x 8 = 72, 7 x 2 = 14, 1 x 4 = 4 |
| Individuals.GenomeValue | src/main/java/nl/joerivandervelde/emp/EvolvingMultiplicativePersistence.java:136 | a genome parses, renders back to itself, and its value has no zero digit |
| Individuals.Describe | src/main/java/nl/joerivandervelde/emp/Individual.java:26-29 | `toString` starts with the genome and is longer than it; for a digit genome, the text before the first space is exactly the genome |
| Individuals.DescribeDeterminesIndividual | src/main/java/nl/joerivandervelde/emp/Individual.java:26-29 | two digit-string individuals with the same `toString` are equal |
| Ranking.Compare | src/main/java/nl/joerivandervelde/emp/SortDescByMP.java:9-11 | negative exactly when `a` scores higher, zero exactly on equal scores, and within `int` range, so there is no overflow |
| Ranking.CompareIsTotalPreorder | src/main/java/nl/joerivandervelde/emp/SortDescByMP.java:9-11 | the comparator is antisymmetric, total and transitive, and consistent on ties |
| Ranking.InsertPermutes | src/main/java/nl/joerivandervelde/emp/EvolvingMultiplicativePersistence.java:74 | inserting into the ranking adds exactly that individual |
| Ranking.InsertKeepsTies | src/main/java/nl/joerivandervelde/emp/EvolvingMultiplicativePersistence.java:74 | insertion puts an individual ahead of those with the same score that were ranked already |
| Ranking.InsertSorts | src/main/java/nl/joerivandervelde/emp/EvolvingMultiplicativePersistence.java:74 | insertion keeps the ranking sorted best first |
| Ranking.StableSort | src/main/java/nl/joerivandervelde/emp/EvolvingMultiplicativePersistence.java:74 | the sort is a permutation, sorted best first, and keeps the input order among equal scores |
| Ranking.StableOrderIsUnique | src/main/java/nl/joerivandervelde/emp/EvolvingMultiplicativePersistence.java:74 | two sequences that are sorted best first and agree on the order within each score are equal, so the sort's result is determined |
| Ranking.SortedLeader | src/main/java/nl/joerivandervelde/emp/EvolvingMultiplicativePersistence.java:74 | the first ranked individual has the top score, and it is the old leader when the old leader has the top score |
| Ranking.TruncationKeepsBest | src/main/java/nl/joerivandervelde/emp/EvolvingMultiplicativePersistence.java:74-75 | the kept prefix has exactly `survivors` elements, each scoring at least as high as every discarded one, and together they make up the generation |
| Rng.Random.constructor | src/main/java/nl/joerivandervelde/emp/EvolvingMultiplicativePersistence.java:65 | the generator hands out the given draws |
| Rng.Random.NextInt9 | src/main/java/nl/joerivandervelde/emp/EvolvingMultiplicativePersistence.java:106 | `nextInt(9)` consumes and returns the next integer draw and leaves the coins alone |
| Rng.Random.NextCoin | src/main/java/nl/joerivandervelde/emp/EvolvingMultiplicativePersistence.java:120 | `nextDouble() < chance` consumes and returns the next coin and leaves the integers alone |
| Mutation.DrawChar | src/main/java/nl/joerivandervelde/emp/EvolvingMultiplicativePersistence.java:106 | `Character.forDigit(v + 1, 10)` is a digit in '1'..'9' |
| Mutation.ReplacementIsFirstDifferentDraw | src/main/java/nl/joerivandervelde/emp/EvolvingMultiplicativePersistence.java:105-107 | the replacement is the first drawn digit different from `t`, and there is none exactly when every pending draw equals `t` |
| Mutation.GetReplacementDigit | src/main/java/nl/joerivandervelde/emp/EvolvingMultiplicativePersistence.java:105-107 | the recursive redraw returns the first different digit and consumes the draws up to it |
| Mutation.PointPassChanges | src/main/java/nl/joerivandervelde/emp/EvolvingMultiplicativePersistence.java:118-122 | the point pass keeps the length; a position whose coin fires holds a different digit in 1..9, and any other position keeps the parent's character |
| Mutation.PointMutate | src/main/java/nl/joerivandervelde/emp/EvolvingMultiplicativePersistence.java:118-122 | the append loop builds the point-pass result and consumes its draws |
| Mutation.IndelWalkAlphabet | src/main/java/nl/joerivandervelde/emp/EvolvingMultiplicativePersistence.java:123-134 | the indel pass introduces no character that was not in the buffer, draws no integer, and consumes a prefix of the coins |
| Mutation.IndelWalkWithoutIndels | src/main/java/nl/joerivandervelde/emp/EvolvingMultiplicativePersistence.java:123-134 | when no indel coin fires, the buffer is unchanged |
| Mutation.DeletionSkipsNext | src/main/java/nl/joerivandervelde/emp/EvolvingMultiplicativePersistence.java:126-128 | after a deletion the character that moves into the deleted position gets no indel coin |
| Mutation.DoublingRevisits | src/main/java/nl/joerivandervelde/emp/EvolvingMultiplicativePersistence.java:129-131 | after a doubling the original character is examined again and can be doubled again |
| Mutation.DeleteAt | src/main/java/nl/joerivandervelde/emp/EvolvingMultiplicativePersistence.java:127-128 | a deletion shortens the buffer by exactly one and removes exactly the character at `i` |
| Mutation.InsertCopyAt | src/main/java/nl/joerivandervelde/emp/EvolvingMultiplicativePersistence.java:130-131 | an insertion lengthens the buffer by exactly one, adding a second copy of the character at `i` |
| Mutation.IndelMutate | src/main/java/nl/joerivandervelde/emp/EvolvingMultiplicativePersistence.java:123-134 | the in-place walk, with `mutantLength` kept equal to the buffer length, produces the indel-pass result |
| Mutation.MutantOfGenome | src/main/java/nl/joerivandervelde/emp/EvolvingMultiplicativePersistence.java:117-137 | a mutant of a genome is a genome scored with its own persistence, and the number-format failure happens exactly when every character was deleted |
| Mutation.GetMutant | src/main/java/nl/joerivandervelde/emp/EvolvingMultiplicativePersistence.java:117-137 | `getMutant` yields the point pass, then the indel pass, then the parse and score |
| Mutation.MutantInheritsGenome | src/main/java/nl/joerivandervelde/emp/EvolvingMultiplicativePersistence.java:136 | mutants of a genome are scored genomes |
| Mutation.StartIsGenome | src/main/java/nl/joerivandervelde/emp/EvolvingMultiplicativePersistence.java:146-154 | the founder is a genome of exactly `STARTING_LENGTH` digits, each its draw plus one, scored with its persistence |
| Mutation.GetStart | src/main/java/nl/joerivandervelde/emp/EvolvingMultiplicativePersistence.java:146-154 | the append loop builds that founder and consumes its draws |
| Evolution.ClonesPerProgenitor | src/main/java/nl/joerivandervelde/emp/EvolvingMultiplicativePersistence.java:76-77 | the survivors and their clones fill the population as far as whole families fit |
| Evolution.DefaultsAreConsistent | src/main/java/nl/joerivandervelde/emp/EvolvingMultiplicativePersistence.java:25-28 | the shipped settings pass the guard and give 99 clones each, refilling to exactly 1000 |
| Evolution.BlockIndex | src/main/java/nl/joerivandervelde/emp/EvolvingMultiplicativePersistence.java:78-86 | clone `c` of progenitor `p` sits in that progenitor's block |
| Evolution.InitialGeneration | src/main/java/nl/joerivandervelde/emp/EvolvingMultiplicativePersistence.java:66-71 | the first generation has `POPULATION_SIZE` members, each a mutant of the founder |
| Evolution.AppendClones | src/main/java/nl/joerivandervelde/emp/EvolvingMultiplicativePersistence.java:80-85 | the inner loop appends `clones` mutants of one progenitor and leaves the list before them unchanged |
| Evolution.Refill | src/main/java/nl/joerivandervelde/emp/EvolvingMultiplicativePersistence.java:78-86 | each survivor keeps its place and is followed, block by block, by its own clones |
| Evolution.ExtendRefill | src/main/java/nl/joerivandervelde/emp/EvolvingMultiplicativePersistence.java:78-86 | appending one more progenitor's clones keeps the refill shape |
| Evolution.NextGeneration | src/main/java/nl/joerivandervelde/emp/EvolvingMultiplicativePersistence.java:74-86 | after sort, truncation and refill, the list has the refill size, starts with the best survivors in stable order, and every other member is a mutant of its progenitor |
| Evolution.RankedScored | src/main/java/nl/joerivandervelde/emp/EvolvingMultiplicativePersistence.java:74 | ranking keeps every member a scored genome |
| Evolution.RefilledScored | src/main/java/nl/joerivandervelde/emp/EvolvingMultiplicativePersistence.java:78-86 | refilling keeps every member a scored genome |
| Evolution.ImprovingStep | src/main/java/nl/joerivandervelde/emp/EvolvingMultiplicativePersistence.java:87-92 | reporting a leader above `betterMP` keeps the reported records strictly increasing |
| Evolution.RecordKept | src/main/java/nl/joerivandervelde/emp/EvolvingMultiplicativePersistence.java:87-92 | when no new record is set, the last record holder stays at the head |
| Evolution.BestScoreIsMax | src/main/java/nl/joerivandervelde/emp/EvolvingMultiplicativePersistence.java:87-88 | the best leader score is at least 0 and at least every leader's score, and it is 0 or some leader's score |
| Evolution.RecordsTrackBest | src/main/java/nl/joerivandervelde/emp/EvolvingMultiplicativePersistence.java:87-92 | after any number of rounds, `betterMP` is the best leader score, and the reported records have strictly increasing scores in increasing rounds |
| Evolution.RecordsKeepEarlier | src/main/java/nl/joerivandervelde/emp/EvolvingMultiplicativePersistence.java:87-92 | no round withdraws a record or lowers `betterMP`: the records after `k` rounds begin the records of the whole run |
| Evolution.ChainAt | src/main/java/nl/joerivandervelde/emp/EvolvingMultiplicativePersistence.java:73-93 | in a run's history, each generation is the refill of the ranking of the one before, and each round's leader heads the generation it produced |
| Evolution.RoundKeepsInvariant | src/main/java/nl/joerivandervelde/emp/EvolvingMultiplicativePersistence.java:73-93 | a round keeps the generation scored, the records improving, `betterMP` equal to the last record, and the record holder at the head |
| Evolution.Round | src/main/java/nl/joerivandervelde/emp/EvolvingMultiplicativePersistence.java:73-93 | one iteration keeps the loop invariant; the new generation is the refill of the ranked one; the records become exactly those after this round's leader is reported or not; `betterMP` does not decrease |
| Evolution.Rounds | src/main/java/nl/joerivandervelde/emp/EvolvingMultiplicativePersistence.java:72-93 | the loop over all rounds: the generations form a chain of rounds from the first generation, and the reported records are exactly those of the rounds' leaders |
| Evolution.Evolve | src/main/java/nl/joerivandervelde/emp/EvolvingMultiplicativePersistence.java:64-96 | a completed run gives back its history: the founder `getStart` builds from the first draws (a genome of `STARTING_LENGTH` digits), the first generation of its mutants, and a chain of rounds. Its records are exactly those of the rounds' leaders and are improving. The best individual heads the last generation, is a scored genome holding the last record, and comes with its breakdown. A failure is never a configuration error |
| Evolution.Launch | src/main/java/nl/joerivandervelde/emp/EvolvingMultiplicativePersistence.java:44-49 | the configuration error happens exactly when there are more survivors than population, and then before any draw; otherwise a completed run is the evolution's, with its history and the founder built from the first draws |

## Left out

- Random draws: `java.util.Random` and its seeding (lines 54-65) are replaced by a generator that holds finite sequences of draws. The floating-point comparisons with 0.50, 0.75 and 0.5 become boolean coins. Running out of draws ends the run with `OutOfDraws`, which the real generator never does.
- Rng.Random: integer draws and coins come from two separate sequences. The order in which the program interleaves them on one generator is not modelled.
- After a failure the generator's remaining draws are left unspecified.
- Console output (lines 89-91 and 94-95) is left out. `Run` holds what is printed: the records with their rounds, the best individual, and the breakdown text.
- `ArrayList.sort` is specified, not implemented as TimSort. `Ranking.StableSort` is one stable descending sort, and `Ranking.StableOrderIsUnique` shows that every stable descending sort gives the same list.
- `BigInteger` is modelled as `nat` for unsigned digit strings only. Signs, other radixes and whitespace never occur in genomes.
- ArrayList capacities and `subList(...).clear()` are modelled as sequence slicing, not as in-place list edits.
- The four `short` settings (lines 25-28) are `static final` constants in the program. `Evolution.Config` generalises them, and `Evolution.Defaults` holds the shipped values.
- Decimal.ParseNat: accepts only ASCII digits '0'..'9'. Java's `BigInteger` also accepts other Unicode decimal digits, which this model rejects; they never occur in genomes.
- Evolution.Launch requires at least one survivor, and the zero-survivor case is left out as a whole. With zero survivors the program divides by zero at line 77 once a round runs. With no rounds it would finish normally, or fail at line 94 when the population is empty as well.
- Evolution.InitialGeneration states that every member is a mutant of the founder. Individuals are values here, so the program's point that the founder object itself is never added has no counterpart. A mutant whose coins all come up false equals the founder.
- Evolution.InitialGeneration, Evolution.AppendClones, Evolution.Refill, Evolution.NextGeneration, Evolution.Round, Evolution.Rounds, Evolution.Evolve: each new member is stated only to be some mutant of its progenitor, that is, a result `getMutant` yields for some draws. These methods do not say which draws each mutant used or which draws are left in the generator.
- Explanation.ExplainMatchesPersistence: the labels `MP 1` .. `MP k` are stated for persistences below 2^15, where the `short` counter does not wrap. `Explanation.StepAt` gives the labels with wrap-around in general.
- Evaluator.ComputePersistence returns the count wrapped to a `short`, as the program does. No lemma bounds real persistences below 2^15.

=== FILE: decimal.dfy ===
/**
 * Decimal notation of naturals and Java's fixed-width integers: what
 * `String.valueOf(BigInteger)`, `new BigInteger(String)`, string
 * concatenation of an `int` and the narrowing to `short` compute.
 */
module Decimal {
  import opened Outcomes

  /** Java `short`. */
  type Short = x: int | -0x8000 <= x < 0x8000
  /** Java `int`. */
  type Int32 = x: int | -0x8000_0000 <= x < 0x8000_0000
  /** A non-negative Java `short`, as the run's settings are. */
  type ShortNat = x: int | 0 <= x < 0x8000

  /** A decimal digit value. */
  type Digit = x: int | 0 <= x <= 9

  /** Two's-complement narrowing of an integer to `short`, as `result++` on a `short` does. */
  function ShortWrap(x: int): (r: Short)
    ensures (x - r) % 0x1_0000 == 0
    ensures -0x8000 <= x < 0x8000 ==> r == x
  {
    (x + 0x8000) % 0x1_0000 - 0x8000
  }

  /** Incrementing a wrapped counter is wrapping the incremented count. */
  lemma ShortWrapSucc(x: int)
    ensures ShortWrap(ShortWrap(x) + 1) == ShortWrap(x + 1)
  {
  }

  /** The decimal digits of `n`, most significant first; `0` is written as the single digit 0. */
  function Digits(n: nat): (ds: seq<Digit>)
    ensures |ds| >= 1
    ensures ds[0] == 0 <==> n == 0
  {
    if n < 10 then [n] else Digits(n / 10) + [n % 10]
  }

  /** The natural a digit sequence denotes (most significant digit first). */
  function ValueOf(ds: seq<Digit>): nat
  {
    if ds == [] then 0 else ValueOf(ds[..|ds| - 1]) * 10 + ds[|ds| - 1]
  }

  lemma {:induction false} ValueOfDigits(n: nat)
    ensures ValueOf(Digits(n)) == n
  {
    if n >= 10 {
      var ds := Digits(n);
      assert ds[..|ds| - 1] == Digits(n / 10);
      ValueOfDigits(n / 10);
    }
  }

  lemma {:induction false} ValueOfLeadingNonZero(ds: seq<Digit>)
    requires |ds| >= 1 && ds[0] != 0
    ensures ValueOf(ds) >= 1
  {
    if |ds| > 1 {
      ValueOfLeadingNonZero(ds[..|ds| - 1]);
    }
  }

  /** A digit sequence without a leading zero is the decimal notation of its value. */
  lemma {:induction false} DigitsOfValue(ds: seq<Digit>)
    requires |ds| >= 1 && ds[0] != 0
    ensures Digits(ValueOf(ds)) == ds
  {
    var init := ds[..|ds| - 1];
    if init == [] {
      assert ds == [ds[0]];
    } else {
      ValueOfLeadingNonZero(init);
      DigitsOfValue(init);
      var v := ValueOf(ds);
      assert v / 10 == ValueOf(init) && v % 10 == ds[|ds| - 1];
      assert ds == init + [ds[|ds| - 1]];
    }
  }

  predicate IsDigitChar(c: char)
  {
    '0' <= c <= '9'
  }

  /** The character of a digit (`Character.forDigit(d, 10)` for `d` in 0..9). */
  function DigitChar(d: Digit): (c: char)
    ensures IsDigitChar(c)
  {
    ('0' as int + d) as char
  }

  /** The value of a digit character. */
  function CharValue(c: char): (d: Digit)
    requires IsDigitChar(c)
    ensures DigitChar(d) == c
  {
    c as int - '0' as int
  }

  predicate AllDigitChars(s: string)
  {
    forall i :: 0 <= i < |s| ==> IsDigitChar(s[i])
  }

  function DigitsOfString(s: string): seq<Digit>
    requires AllDigitChars(s)
  {
    seq(|s|, i requires 0 <= i < |s| => CharValue(s[i]))
  }

  /** `String.valueOf(n)` for a non-negative `n`. */
  function NatToString(n: nat): (s: string)
    ensures |s| == |Digits(n)|
  {
    var ds := Digits(n);
    seq(|ds|, i requires 0 <= i < |ds| => DigitChar(ds[i]))
  }

  /** The decimal rendering of `n` spells the digits of `n`. */
  lemma NatToStringDigits(n: nat)
    ensures AllDigitChars(NatToString(n))
    ensures DigitsOfString(NatToString(n)) == Digits(n)
  {
  }

  /** Java's decimal rendering of an integer, as string concatenation produces it. */
  function IntToString(x: int): (s: string)
  {
    if x < 0 then "-" + NatToString(-x) else NatToString(x)
  }

  /** The value of decimal text, read left to right: each digit shifts the value read so far one place. */
  function TextValue(s: string): nat
    requires AllDigitChars(s)
    decreases |s|
  {
    if s == [] then 0 else TextValue(s[..|s| - 1]) * 10 + CharValue(s[|s| - 1])
  }

  /** Reading text is taking the value of its digit sequence. */
  lemma {:induction false} TextValueDigits(s: string)
    requires AllDigitChars(s)
    ensures TextValue(s) == ValueOf(DigitsOfString(s))
    decreases |s|
  {
    if s != [] {
      var init := s[..|s| - 1];
      TextValueDigits(init);
      assert DigitsOfString(init) == DigitsOfString(s)[..|s| - 1];
    }
  }

  /**
   * `new BigInteger(s)` for unsigned text of ASCII digits '0'..'9': the
   * empty string and any other character are rejected. (Java also accepts
   * non-ASCII decimal digits, which never occur in a genome.)
   */
  function ParseNat(s: string): (r: Option<nat>)
    ensures r.Some? <==> |s| >= 1 && AllDigitChars(s)
  {
    if |s| >= 1 && AllDigitChars(s) then Some(TextValue(s)) else None
  }

  /** Parsing the decimal rendering of `n` gives `n` back. */
  lemma ParseNatToString(n: nat)
    ensures ParseNat(NatToString(n)) == Some(n)
  {
    NatToStringDigits(n);
    ValueOfDigits(n);
    TextValueDigits(NatToString(n));
  }

  /** Decimal text without a leading zero is what its value prints as. */
  lemma NatToStringOfParse(s: string)
    requires |s| >= 1 && AllDigitChars(s) && s[0] != '0'
    ensures ParseNat(s).Some? && NatToString(ParseNat(s).value) == s
  {
    var ds := DigitsOfString(s);
    TextValueDigits(s);
    DigitsOfValue(ds);
    var t := NatToString(ValueOf(ds));
    assert |t| == |s|;
    forall i | 0 <= i < |s| ensures t[i] == s[i] {
      assert DigitChar(ds[i]) == s[i];
    }
  }

  /** Distinct naturals render differently. */
  lemma NatToStringInjective(a: nat, b: nat)
    requires NatToString(a) == NatToString(b)
    ensures a == b
  {
    ParseNatToString(a);
    ParseNatToString(b);
  }

  lemma IntToStringInjective(x: int, y: int)
    requires IntToString(x) == IntToString(y)
    ensures x == y
  {
    NatToStringDigits(if x < 0 then -x else x);
    NatToStringDigits(if y < 0 then -y else y);
    if x >= 0 && y >= 0 {
      NatToStringInjective(x, y);
    } else if x < 0 && y < 0 {
      assert NatToString(-x) == IntToString(x)[1..] == IntToString(y)[1..] == NatToString(-y);
      NatToStringInjective(-x, -y);
    }
  }
}

=== FILE: evaluator.dfy ===
/**
 * The digit-product persistence evaluator: `persistence` counts how often a
 * number must be replaced by the product of its decimal digits before it is
 * a single digit; `explain` writes the same walk out step by step.
 */
module Evaluator {
  import opened Decimal

  /** The product of a digit sequence, multiplied in as the digits are read. */
  function Product(ds: seq<Digit>): nat
  {
    if ds == [] then 1 else ds[|ds| - 1] * Product(ds[..|ds| - 1])
  }

  lemma ProductSnoc(ds: seq<Digit>, d: Digit)
    ensures Product(ds + [d]) == d * Product(ds)
  {
    assert (ds + [d])[..|ds|] == ds;
  }

  lemma ProductSingle(d: Digit)
    ensures Product([d]) == d
  {
    ProductSnoc([], d);
    assert [] + [d] == [d];
  }

  /** The product of the decimal digits of `n`. */
  function DigitProduct(n: nat): nat
  {
    Product(Digits(n))
  }

  /** A zero digit anywhere collapses the product to zero. */
  lemma {:induction false} ProductWithZero(ds: seq<Digit>)
    requires 0 in ds
    ensures Product(ds) == 0
  {
    if ds[|ds| - 1] != 0 {
      assert 0 in ds[..|ds| - 1] by {
        var k :| 0 <= k < |ds| && ds[k] == 0;
        assert ds[..|ds| - 1][k] == 0;
      }
      ProductWithZero(ds[..|ds| - 1]);
    }
  }

  lemma {:induction false} DigitProductAtMost(n: nat)
    requires n >= 1
    ensures DigitProduct(n) <= n
  {
    if n < 10 {
      ProductSingle(n);
    } else {
      var ds := Digits(n);
      assert ds[..|ds| - 1] == Digits(n / 10);
      DigitProductAtMost(n / 10);
      assert DigitProduct(n) == (n % 10) * DigitProduct(n / 10);
      assert (n % 10) * DigitProduct(n / 10) <= 9 * (n / 10) by {
        MulLeq(n % 10, 9, DigitProduct(n / 10), n / 10);
      }
    }
  }

  lemma MulLeq(a: nat, b: nat, c: nat, d: nat)
    requires a <= b && c <= d
    ensures a * c <= b * d
  {
  }

  /** For a number of two or more digits the digit product is strictly smaller: the loop terminates. */
  lemma {:induction false} DigitProductLess(n: nat)
    requires n > 9
    ensures DigitProduct(n) < n
  {
    var ds := Digits(n);
    assert ds[..|ds| - 1] == Digits(n / 10);
    DigitProductAtMost(n / 10);
    assert DigitProduct(n) == (n % 10) * DigitProduct(n / 10);
    MulLeq(n % 10, 9, DigitProduct(n / 10), n / 10);
  }

  /** Multiplicative persistence, with an unbounded step count. */
  function Persistence(n: nat): (k: nat)
    ensures k == 0 <==> n <= 9
    decreases n
  {
    if n <= 9 then 0
    else
      DigitProductLess(n);
      1 + Persistence(DigitProduct(n))
  }

  /** The values the evaluator passes through, from `n` down to a single digit. */
  function Trajectory(n: nat): (t: seq<nat>)
    ensures |t| == Persistence(n) + 1
    ensures t[0] == n && t[|t| - 1] <= 9
    decreases n
  {
    if n <= 9 then [n]
    else
      DigitProductLess(n);
      [n] + Trajectory(DigitProduct(n))
  }

  /** Every value of the walk but the last has two or more digits, and the next is its digit product. */
  lemma {:induction false} TrajectoryStep(n: nat, j: nat)
    requires j + 1 < |Trajectory(n)|
    ensures Trajectory(n)[j] > 9 && Trajectory(n)[j + 1] == DigitProduct(Trajectory(n)[j])
    decreases n
  {
    DigitProductLess(n);
    if j > 0 {
      TrajectoryStep(DigitProduct(n), j - 1);
    }
  }

  /**
   * `persistence(n)`: while `n > 9`, replace `n` by the product of the digits
   * of its decimal text and count the step in a `short`.
   */
  method ComputePersistence(n: nat) returns (result: Short)
    ensures result == ShortWrap(Persistence(n))
  {
    var m := n;
    result := 0;
    ghost var steps := 0;
    while m > 9
      invariant result == ShortWrap(steps)
      invariant steps + Persistence(m) == Persistence(n)
      decreases m
    {
      var multi := DigitProductOfText(m);
      DigitProductLess(m);
      m := multi;
      ShortWrapSucc(steps);
      result := ShortWrap(result + 1);
      steps := steps + 1;
    }
  }

  /** The inner loop of `persistence`: multiply the digits of `String.valueOf(m)` into `multi`. */
  method DigitProductOfText(m: nat) returns (multi: nat)
    ensures multi == DigitProduct(m)
  {
    var cs := NatToString(m);
    ghost var ds := Digits(m);
    NatToStringDigits(m);
    multi := 1;
    var j := 0;
    while j < |cs|
      invariant 0 <= j <= |cs|
      invariant multi == Product(ds[..j])
    {
      assert CharValue(cs[j]) == ds[j];
      ProductPrefix(ds, j);
      multi := CharValue(cs[j]) * multi;
      j := j + 1;
    }
    assert ds[..j] == ds;
  }

  /** One more digit of the prefix multiplies the product by that digit. */
  lemma ProductPrefix(ds: seq<Digit>, j: nat)
    requires j < |ds|
    ensures Product(ds[..j + 1]) == ds[j] * Product(ds[..j])
  {
    assert ds[..j + 1][..j] == ds[..j];
  }

  // ---------------------------------------------------------------------
  // Worked values

  lemma TwoDigitProduct(n: nat)
    requires 10 <= n < 100
    ensures Digits(n) == [n / 10, n % 10]
    ensures DigitProduct(n) == (n / 10) * (n % 10)
  {
    assert Digits(n / 10) == [n / 10];
    ProductSingle(n / 10);
    ProductSnoc([n / 10], n % 10);
    assert [n / 10] + [n % 10] == [n / 10, n % 10];
  }

  lemma OneStep(n: nat, p: nat)
    requires n > 9 && DigitProduct(n) == p
    ensures Persistence(n) == 1 + Persistence(p)
  {
  }

  lemma PersistenceOfNine()
    ensures Persistence(9) == 0
  {
  }

  /** 99 -> 81 -> 8 */
  lemma PersistenceOfNinetyNine()
    ensures Persistence(99) == 2
  {
    TwoDigitProduct(99);
    TwoDigitProduct(81);
    OneStep(99, 81);
    OneStep(81, 8);
  }

  /** 77 -> 49 -> 36 -> 18 -> 8 */
  lemma PersistenceOfSeventySeven()
    ensures Persistence(77) == 4
  {
    TwoDigitProduct(77);
    TwoDigitProduct(49);
    TwoDigitProduct(36);
    TwoDigitProduct(18);
    OneStep(77, 49);
    OneStep(49, 36);
    OneStep(36, 18);
    OneStep(18, 8);
  }

}

=== FILE: evolution.dfy ===
/**
 * The search itself: a founder, a first generation of its mutants, then
 * rounds of ranking, truncation to the survivors and refilling with
 * mutants of the survivors, reporting each new record score and finally
 * the best individual with a breakdown of its persistence.
 *
 * The program's four `short` settings are `static final` constants; `Config` holds them
 * so that the guard in `main` can be stated, and `Defaults` holds the
 * values the program ships with.
 */
module Evolution {
  import opened Outcomes
  import opened Decimal
  import opened Evaluator
  import opened Individuals
  import opened Ranking
  import opened Rng
  import opened Mutation
  import opened Explanation

  /** STARTING_LENGTH, POPULATION_SIZE, NR_OF_SURVIVORS, NR_OF_ITERATIONS: all `short`. */
  datatype Config = Config(startingLength: ShortNat, populationSize: ShortNat, survivors: ShortNat, iterations: ShortNat)

  const Defaults := Config(50, 1000, 10, 250)

  /** A record score reported during the run: the round and the leader that set it. */
  datatype Improvement = Improvement(generation: nat, leader: Individual)

  /** What the run prints: the records as they are set, the best individual, and its breakdown. */
  datatype Run = Run(improvements: seq<Improvement>, best: Individual, breakdown: string)

  /**
   * `howManyClonesPerProgenitor = (POPULATION_SIZE - NR_OF_SURVIVORS) / NR_OF_SURVIVORS`:
   * the refilled generation is the largest whole number of survivor
   * families (a survivor and its clones) that fits in the population.
   */
  function ClonesPerProgenitor(cfg: Config): (n: nat)
    requires 1 <= cfg.survivors <= cfg.populationSize
    ensures cfg.survivors + cfg.survivors * n <= cfg.populationSize < cfg.survivors + cfg.survivors * (n + 1)
  {
    RefillSize(cfg.populationSize, cfg.survivors);
    (cfg.populationSize - cfg.survivors) / cfg.survivors
  }

  lemma RefillSize(p: nat, s: nat)
    requires 1 <= s <= p
    ensures s + s * ((p - s) / s) <= p < s + s * ((p - s) / s + 1)
  {
    var q, rem := (p - s) / s, (p - s) % s;
    assert p - s == s * q + rem;
    assert s * (q + 1) == s * q + s;
  }

  /** The shipped settings pass the guard in `main` and refill 10 families of 100 to exactly 1000. */
  lemma DefaultsAreConsistent()
    ensures 1 <= Defaults.survivors <= Defaults.populationSize
    ensures ClonesPerProgenitor(Defaults) == 99
    ensures Defaults.survivors + Defaults.survivors * ClonesPerProgenitor(Defaults) == Defaults.populationSize
  {
    assert (1000 - 10) / 10 == 99;
  }

  /** The survivor whose mutant sits at index `k` of a refilled generation. */
  function Progenitor(k: int, survivors: nat, clones: nat): int
  {
    if clones == 0 then 0 else (k - survivors) / clones
  }

  /** Mutants are appended in blocks of `clones`, one block per survivor in rank order. */
  lemma BlockIndex(survivors: nat, p: nat, clones: nat, c: nat)
    requires c < clones
    ensures Progenitor(survivors + p * clones + c, survivors, clones) == p
  {
    var k := p * clones + c;
    var q, rem := k / clones, k % clones;
    assert k == clones * q + rem;
    if q < p {
      MulLeq(q + 1, p, clones, clones);
    } else if q > p {
      MulLeq(p + 1, q, clones, clones);
    }
  }

  /** Every individual is a genome scored with its own persistence. */
  ghost predicate AllScored(g: seq<Individual>)
  {
    forall k :: 0 <= k < |g| ==> IsGenome(g[k].s) && Scored(g[k])
  }

  /** A refilled generation: the best `survivors` in sorted order, then `clones` mutants of each survivor in turn. */
  ghost predicate Refilled(g: seq<Individual>, ranked: seq<Individual>, survivors: nat, clones: nat)
    requires survivors <= |ranked|
  {
    survivors <= |g| && Families(g, ranked[..survivors], clones)
  }

  /** The constructor's first loop: the first generation is `populationSize` mutants of the founder. */
  method InitialGeneration(cfg: Config, founder: Individual, r: Random) returns (res: Result<seq<Individual>>)
    modifies r
    ensures res.Ok? ==> |res.value| == cfg.populationSize
    ensures res.Ok? ==> forall k :: 0 <= k < |res.value| ==> IsMutantOf(res.value[k], founder)
    ensures res.Err? ==> res.error != Misconfigured
  {
    var generation := [];
    var i := 0;
    while i < cfg.populationSize
      invariant 0 <= i <= cfg.populationSize && |generation| == i
      invariant forall k :: 0 <= k < i ==> IsMutantOf(generation[k], founder)
    {
      ghost var d := r.State();
      var mutant := GetMutant(founder, r);
      if mutant.Err? {
        return Err(mutant.error);
      }
      MutantWitness(founder, d, mutant, r.State());
      generation := generation + [mutant.value];
      i := i + 1;
    }
    res := Ok(generation);
  }

  /** The clone loop: append `clones` mutants of the survivor at rank `progenitor`. */
  method AppendClones(g: seq<Individual>, survivors: nat, progenitor: nat, clones: nat, r: Random)
    returns (res: Result<seq<Individual>>)
    requires progenitor < survivors && |g| == survivors + progenitor * clones
    modifies r
    ensures res.Ok? ==> |res.value| == |g| + clones && res.value[..|g|] == g
    ensures res.Ok? ==> forall k :: |g| <= k < |res.value| ==>
      Progenitor(k, survivors, clones) == progenitor && IsMutantOf(res.value[k], g[progenitor])
    ensures res.Err? ==> res.error != Misconfigured
  {
    var parent := g[progenitor];
    var h := g;
    var clone := 0;
    while clone < clones
      invariant 0 <= clone <= clones
      invariant |h| == |g| + clone && h[..|g|] == g
      invariant forall k :: |g| <= k < |h| ==> Progenitor(k, survivors, clones) == progenitor && IsMutantOf(h[k], parent)
    {
      ghost var d := r.State();
      var mutant := GetMutant(parent, r);
      if mutant.Err? {
        return Err(mutant.error);
      }
      MutantWitness(parent, d, mutant, r.State());
      BlockIndex(survivors, progenitor, clones, clone);
      h := h + [mutant.value];
      clone := clone + 1;
    }
    res := Ok(h);
  }

  /** Refill after a family-wise layout: the survivors, then `clones` mutants of each survivor in turn. */
  ghost predicate Families(g: seq<Individual>, survivors: seq<Individual>, clones: nat)
  {
    |g| == |survivors| + |survivors| * clones
    && g[..|survivors|] == survivors
    && forall k :: |survivors| <= k < |g| ==>
         0 <= Progenitor(k, |survivors|, clones) < |survivors| && IsMutantOf(g[k], g[Progenitor(k, |survivors|, clones)])
  }

  /** The progenitor loop with the clone loop nested in it. */
  method Refill(survivors: seq<Individual>, clones: nat, r: Random) returns (res: Result<seq<Individual>>)
    modifies r
    ensures res.Ok? ==> Families(res.value, survivors, clones)
    ensures res.Err? ==> res.error != Misconfigured
  {
    var count := |survivors|;
    var g := survivors;
    var progenitor := 0;
    while progenitor < count
      invariant 0 <= progenitor <= count
      invariant |g| == count + progenitor * clones
      invariant g[..count] == survivors
      invariant forall k :: count <= k < |g| ==>
        0 <= Progenitor(k, count, clones) < progenitor && IsMutantOf(g[k], g[Progenitor(k, count, clones)])
    {
      var next := AppendClones(g, count, progenitor, clones, r);
      if next.Err? {
        return Err(next.error);
      }
      ExtendRefill(g, next.value, count, progenitor, clones);
      g := next.value;
      progenitor := progenitor + 1;
    }
    res := Ok(g);
  }

  /** One round's ranking and refill: sort, keep the best `survivors` (the rest is cleared), and refill. */
  method NextGeneration(cfg: Config, generation: seq<Individual>, r: Random) returns (res: Result<seq<Individual>>)
    requires 1 <= cfg.survivors <= cfg.populationSize
    requires cfg.survivors <= |generation|
    modifies r
    ensures res.Ok? ==> Refilled(res.value, StableSort(generation), cfg.survivors, ClonesPerProgenitor(cfg))
    ensures res.Err? ==> res.error != Misconfigured
  {
    var sorted := StableSort(generation);
    res := Refill(sorted[..cfg.survivors], ClonesPerProgenitor(cfg), r);
  }

  /** Appending the block of one more survivor keeps every earlier mutant next to its progenitor. */
  lemma ExtendRefill(g: seq<Individual>, h: seq<Individual>, survivors: nat, progenitor: nat, clones: nat)
    requires progenitor < survivors <= |g| && |g| == survivors + progenitor * clones
    requires |h| == |g| + clones && h[..|g|] == g
    requires forall k :: survivors <= k < |g| ==>
      0 <= Progenitor(k, survivors, clones) < progenitor && IsMutantOf(g[k], g[Progenitor(k, survivors, clones)])
    requires forall k :: |g| <= k < |h| ==> Progenitor(k, survivors, clones) == progenitor && IsMutantOf(h[k], g[progenitor])
    ensures |h| == survivors + (progenitor + 1) * clones
    ensures h[..survivors] == g[..survivors]
    ensures forall k :: survivors <= k < |h| ==>
      0 <= Progenitor(k, survivors, clones) < progenitor + 1 && IsMutantOf(h[k], h[Progenitor(k, survivors, clones)])
  {
    assert survivors + progenitor * clones + clones == survivors + (progenitor + 1) * clones;
    forall k | survivors <= k < |h|
      ensures 0 <= Progenitor(k, survivors, clones) < progenitor + 1 && IsMutantOf(h[k], h[Progenitor(k, survivors, clones)])
    {
      var p := Progenitor(k, survivors, clones);
      if k < |g| {
        assert h[k] == g[k] && h[p] == g[p];
      } else {
        assert h[p] == g[p];
      }
    }
  }

  /** Ranking only reorders: the ranked generation is made of the same scored genomes. */
  lemma RankedScored(g: seq<Individual>)
    requires AllScored(g)
    ensures AllScored(StableSort(g))
  {
    var ranked := StableSort(g);
    forall k | 0 <= k < |ranked| ensures IsGenome(ranked[k].s) && Scored(ranked[k]) {
      assert ranked[k] in multiset(g);
      var i :| 0 <= i < |g| && g[i] == ranked[k];
    }
  }

  /** The refill keeps survivors and appends mutants of survivors only, so all stay scored genomes. */
  lemma RefilledScored(g: seq<Individual>, ranked: seq<Individual>, survivors: nat, clones: nat)
    requires survivors <= |ranked| && AllScored(ranked)
    requires Refilled(g, ranked, survivors, clones)
    ensures AllScored(g)
  {
    forall k | 0 <= k < survivors ensures IsGenome(g[k].s) && Scored(g[k]) {
      assert g[k] == g[..survivors][k] == ranked[k];
    }
    forall k | survivors <= k < |g| ensures IsGenome(g[k].s) && Scored(g[k]) {
      MutantInheritsGenome(g[k], g[Progenitor(k, survivors, clones)]);
    }
  }

  /** Records are set in increasing rounds with strictly increasing positive scores. */
  predicate Improving(improvements: seq<Improvement>, rounds: nat)
  {
    (forall i :: 0 <= i < |improvements| ==> improvements[i].generation < rounds && improvements[i].leader.mp > 0)
    && forall i, j :: 0 <= i < j < |improvements| ==>
         improvements[i].generation < improvements[j].generation && improvements[i].leader.mp < improvements[j].leader.mp
  }

  /** The score `betterMP` holds: the last record, or 0 before the first. */
  function Record(improvements: seq<Improvement>): int
  {
    if improvements == [] then 0 else improvements[|improvements| - 1].leader.mp
  }

  /**
   * What a completed run promises: the best individual is a scored genome,
   * the breakdown is its persistence breakdown, the records improve, and
   * after at least one round the best individual is the last record holder
   * itself (or no record was set and it scores at most 0).
   */
  ghost predicate GoodRun(cfg: Config, run: Run)
  {
    IsGenome(run.best.s) && Scored(run.best)
    && ParseNat(run.best.s).Some? && run.breakdown == Breakdown(ParseNat(run.best.s).value)
    && Improving(run.improvements, cfg.iterations)
    && (cfg.iterations > 0 ==>
          if run.improvements == [] then run.best.mp <= 0
          else run.improvements[|run.improvements| - 1].leader == run.best)
  }

  /** A new record, above the last one, extends the improving records by one round. */
  lemma ImprovingStep(improvements: seq<Improvement>, round: nat, leader: Individual, record: bool)
    requires Improving(improvements, round)
    requires record ==> leader.mp > Record(improvements)
    ensures record ==> Improving(improvements + [Improvement(round, leader)], round + 1)
    ensures Improving(improvements, round + 1)
  {
    if record {
      var next := improvements + [Improvement(round, leader)];
      forall i, j | 0 <= i < j < |next|
        ensures next[i].generation < next[j].generation && next[i].leader.mp < next[j].leader.mp
      {
        if j == |improvements| && i < |improvements| - 1 {
          assert improvements[i].leader.mp < improvements[|improvements| - 1].leader.mp;
        }
      }
    }
  }

  /** What the loop needs of the ranking: it keeps scored genomes, and puts a top scorer first, the old leader if it is one. */
  lemma RankedFacts(g: seq<Individual>)
    requires g != [] && AllScored(g)
    ensures |StableSort(g)| == |g| && AllScored(StableSort(g))
    ensures StableSort(g)[0].mp >= g[0].mp
    ensures StableSort(g)[0].mp == g[0].mp ==> StableSort(g)[0] == g[0]
  {
    RankedScored(g);
    SortedLeader(g);
  }

  /** One round's bookkeeping keeps the record holder at the head of the generation. */
  lemma RecordKept(generation: seq<Individual>, ranked: seq<Individual>, next: seq<Individual>,
                   improvements: seq<Improvement>, round: nat, survivors: nat)
    requires 1 <= survivors <= |generation| && survivors <= |ranked| && survivors <= |next|
    requires next[..survivors] == ranked[..survivors]
    requires ranked[0].mp >= generation[0].mp && (ranked[0].mp == generation[0].mp ==> ranked[0] == generation[0])
    requires round > 0 ==> if improvements == [] then generation[0].mp <= 0 else improvements[|improvements| - 1].leader == generation[0]
    requires Improving(improvements, round) && next[0].mp <= Record(improvements)
    ensures if improvements == [] then next[0].mp <= 0 else improvements[|improvements| - 1].leader == next[0]
  {
    assert next[0] == next[..survivors][0] == ranked[0];
    if improvements != [] {
      assert improvements[0].generation < round;
    }
  }

  /** The records the loop reports when its successive rounds are led by `leaders`. */
  function RecordsOf(leaders: seq<Individual>): seq<Improvement>
  {
    if leaders == [] then []
    else
      var earlier := RecordsOf(leaders[..|leaders| - 1]);
      Recorded(earlier, Record(earlier), |leaders| - 1, leaders[|leaders| - 1])
  }

  /** The best score among `leaders`, or 0 when none is above 0. */
  function BestScore(leaders: seq<Individual>): int
  {
    if leaders == [] then 0
    else
      var best := BestScore(leaders[..|leaders| - 1]);
      if leaders[|leaders| - 1].mp > best then leaders[|leaders| - 1].mp else best
  }

  /** `BestScore` is at least 0 and every leader's score, and it is 0 or some leader's score. */
  lemma {:induction false} BestScoreIsMax(leaders: seq<Individual>)
    ensures BestScore(leaders) >= 0
    ensures forall i :: 0 <= i < |leaders| ==> leaders[i].mp <= BestScore(leaders)
    ensures BestScore(leaders) == 0 || exists i :: 0 <= i < |leaders| && leaders[i].mp == BestScore(leaders)
    decreases |leaders|
  {
    if leaders != [] {
      var n := |leaders| - 1;
      var before := leaders[..n];
      BestScoreIsMax(before);
      assert forall i :: 0 <= i < n ==> leaders[i] == before[i];
      if leaders[n].mp <= BestScore(before) && BestScore(before) != 0 {
        var i :| 0 <= i < n && before[i].mp == BestScore(before);
        assert leaders[i].mp == BestScore(leaders);
      }
    }
  }

  /**
   * After any number of rounds, `betterMP` is the best score among the
   * rounds' leaders, and the reported records set strictly increasing
   * scores in increasing rounds.
   */
  lemma {:induction false} RecordsTrackBest(leaders: seq<Individual>)
    ensures Record(RecordsOf(leaders)) == BestScore(leaders)
    ensures Improving(RecordsOf(leaders), |leaders|)
    decreases |leaders|
  {
    if leaders != [] {
      var n := |leaders| - 1;
      var earlier := RecordsOf(leaders[..n]);
      RecordsTrackBest(leaders[..n]);
      ImprovingStep(earlier, n, leaders[n], leaders[n].mp > Record(earlier));
    }
  }

  /**
   * Rounds never withdraw a record and never lower `betterMP`: the records
   * after the first `k` rounds begin the records of the whole run.
   */
  lemma {:induction false} RecordsKeepEarlier(leaders: seq<Individual>, k: nat)
    requires k <= |leaders|
    ensures RecordsOf(leaders[..k]) <= RecordsOf(leaders)
    ensures Record(RecordsOf(leaders[..k])) <= Record(RecordsOf(leaders))
    decreases |leaders|
  {
    if k < |leaders| {
      var n := |leaders| - 1;
      var before := leaders[..n];
      assert before[..k] == leaders[..k];
      RecordsKeepEarlier(before, k);
      var earlier := RecordsOf(before);
      assert earlier <= RecordsOf(leaders) by {
        assert earlier <= earlier + [Improvement(n, leaders[n])];
      }
    } else {
      assert leaders[..k] == leaders;
    }
  }

  /** One more round appends its leader's report, if any, to the records. */
  lemma RecordsOfNext(leaders: seq<Individual>, leader: Individual)
    ensures RecordsOf(leaders + [leader]) == Recorded(RecordsOf(leaders), Record(RecordsOf(leaders)), |leaders|, leader)
  {
    assert (leaders + [leader])[..|leaders|] == leaders;
  }

  /**
   * One round of the history: `next` is the refill of the ranking of `prev`,
   * and `leader` is its head.
   */
  ghost predicate RoundStep(cfg: Config, prev: seq<Individual>, next: seq<Individual>, leader: Individual)
    requires 1 <= cfg.survivors <= cfg.populationSize
  {
    cfg.survivors <= |prev|
    && Refilled(next, StableSort(prev), cfg.survivors, ClonesPerProgenitor(cfg))
    && next != [] && leader == next[0]
  }

  /** Generations `gens`, each one round after the one before, led by `leaders` in turn. */
  ghost predicate Chain(cfg: Config, gens: seq<seq<Individual>>, leaders: seq<Individual>)
    requires 1 <= cfg.survivors <= cfg.populationSize
    decreases |leaders|
  {
    |gens| == |leaders| + 1
    && (leaders != [] ==>
          Chain(cfg, gens[..|gens| - 1], leaders[..|leaders| - 1])
          && RoundStep(cfg, gens[|gens| - 2], gens[|gens| - 1], leaders[|leaders| - 1]))
  }

  /** Every round of a chain is a round step. */
  lemma {:induction false} ChainAt(cfg: Config, gens: seq<seq<Individual>>, leaders: seq<Individual>, i: nat)
    requires 1 <= cfg.survivors <= cfg.populationSize
    requires Chain(cfg, gens, leaders) && i < |leaders|
    ensures RoundStep(cfg, gens[i], gens[i + 1], leaders[i])
    decreases |leaders|
  {
    if i < |leaders| - 1 {
      ChainAt(cfg, gens[..|gens| - 1], leaders[..|leaders| - 1], i);
    }
  }

  /** A chain grows by one round step. */
  lemma ChainExtend(cfg: Config, gens: seq<seq<Individual>>, leaders: seq<Individual>, next: seq<Individual>, leader: Individual)
    requires 1 <= cfg.survivors <= cfg.populationSize
    requires Chain(cfg, gens, leaders) && RoundStep(cfg, gens[|gens| - 1], next, leader)
    ensures Chain(cfg, gens + [next], leaders + [leader])
    ensures (gens + [next])[0] == gens[0] && (gens + [next])[|gens|] == next
  {
    assert (gens + [next])[..|gens|] == gens;
    assert (leaders + [leader])[..|leaders|] == leaders;
  }

  /**
   * The history behind a run: the founder; the generations, the first made
   * of the founder's mutants and each later one the refill of the ranking of
   * the one before; and each round's leader, the head of the generation it
   * produced. The reported records are exactly those of these leaders, and
   * the best individual heads the last generation.
   */
  ghost predicate History(cfg: Config, founder: Individual, gens: seq<seq<Individual>>, leaders: seq<Individual>, run: Run)
    requires 1 <= cfg.survivors <= cfg.populationSize
  {
    IsGenome(founder.s) && |founder.s| == cfg.startingLength && Scored(founder)
    && |leaders| == cfg.iterations && Chain(cfg, gens, leaders)
    && |gens[0]| == cfg.populationSize
    && (forall k :: 0 <= k < |gens[0]| ==> IsMutantOf(gens[0][k], founder))
    && run.improvements == RecordsOf(leaders)
    && gens[|gens| - 1] != [] && run.best == gens[|gens| - 1][0]
  }

  /** The state the constructor's loop carries: the generation and the records reported so far. */
  ghost predicate RoundInvariant(cfg: Config, generation: seq<Individual>, improvements: seq<Improvement>, round: nat)
  {
    1 <= cfg.survivors <= |generation| && AllScored(generation)
    && Improving(improvements, round)
    && (round > 0 ==>
          if improvements == [] then generation[0].mp <= 0 else improvements[|improvements| - 1].leader == generation[0])
  }

  /** The record check at the end of a round: the records after a round whose leader is `leader`. */
  function Recorded(improvements: seq<Improvement>, betterMP: int, round: nat, leader: Individual): seq<Improvement>
  {
    if leader.mp > betterMP then improvements + [Improvement(round, leader)] else improvements
  }

  /** A round keeps the loop's state: scored genomes, improving records, and the record holder at the head. */
  lemma RoundKeepsInvariant(cfg: Config, generation: seq<Individual>, ranked: seq<Individual>, next: seq<Individual>,
                            clones: nat, improvements: seq<Improvement>, betterMP: int, round: nat)
    requires RoundInvariant(cfg, generation, improvements, round) && betterMP == Record(improvements)
    requires cfg.survivors <= |ranked| && AllScored(ranked)
    requires ranked[0].mp >= generation[0].mp && (ranked[0].mp == generation[0].mp ==> ranked[0] == generation[0])
    requires Refilled(next, ranked, cfg.survivors, clones)
    ensures RoundInvariant(cfg, next, Recorded(improvements, betterMP, round, next[0]), round + 1)
    ensures Record(Recorded(improvements, betterMP, round, next[0])) == if next[0].mp > betterMP then next[0].mp else betterMP
  {
    RefilledScored(next, ranked, cfg.survivors, clones);
    var leader := next[0];
    ImprovingStep(improvements, round, leader, leader.mp > betterMP);
    if leader.mp <= betterMP {
      RecordKept(generation, ranked, next, improvements, round, cfg.survivors);
    }
  }

  /** One pass of the constructor's round loop: refill the generation and report its leader when it beats `betterMP`. */
  method Round(cfg: Config, generation: seq<Individual>, improvements: seq<Improvement>, betterMP: int, round: nat, r: Random)
    returns (res: Result<(seq<Individual>, seq<Improvement>, int)>)
    requires 1 <= cfg.survivors <= cfg.populationSize
    requires RoundInvariant(cfg, generation, improvements, round) && betterMP == Record(improvements)
    modifies r
    ensures res.Ok? ==> RoundInvariant(cfg, res.value.0, res.value.1, round + 1) && res.value.2 == Record(res.value.1)
    ensures res.Ok? ==> Refilled(res.value.0, StableSort(generation), cfg.survivors, ClonesPerProgenitor(cfg))
    ensures res.Ok? ==> |res.value.0| >= 1 && res.value.1 == Recorded(improvements, betterMP, round, res.value.0[0])
    ensures res.Ok? ==> betterMP <= res.value.2
    ensures res.Err? ==> res.error != Misconfigured
  {
    var next := NextGeneration(cfg, generation, r);
    if next.Err? {
      return Err(next.error);
    }
    RankedFacts(generation);
    RoundKeepsInvariant(cfg, generation, StableSort(generation), next.value, ClonesPerProgenitor(cfg), improvements, betterMP, round);
    var leader := next.value[0];
    if leader.mp > betterMP {
      res := Ok((next.value, improvements + [Improvement(round, leader)], leader.mp as int));
    } else {
      res := Ok((next.value, improvements, betterMP));
    }
  }

  /** The constructor's round loop: `iterations` rounds from the first generation, with `betterMP` starting at 0. */
  method Rounds(cfg: Config, first: seq<Individual>, r: Random)
    returns (res: Result<(seq<Individual>, seq<Improvement>)>, ghost gens: seq<seq<Individual>>, ghost leaders: seq<Individual>)
    requires 1 <= cfg.survivors <= cfg.populationSize
    requires RoundInvariant(cfg, first, [], 0)
    modifies r
    ensures res.Ok? ==> RoundInvariant(cfg, res.value.0, res.value.1, cfg.iterations)
    ensures res.Ok? ==> |leaders| == cfg.iterations && Chain(cfg, gens, leaders) && gens[0] == first
    ensures res.Ok? ==> gens[|gens| - 1] == res.value.0 && res.value.1 == RecordsOf(leaders)
    ensures res.Err? ==> res.error != Misconfigured
  {
    var generation := first;
    var betterMP: int := 0;
    var improvements: seq<Improvement> := [];
    gens, leaders := [generation], [];
    var itr: nat := 0;
    while itr < cfg.iterations
      invariant itr <= cfg.iterations
      invariant RoundInvariant(cfg, generation, improvements, itr) && betterMP == Record(improvements)
      invariant |leaders| == itr && Chain(cfg, gens, leaders) && gens[0] == first && gens[itr] == generation
      invariant improvements == RecordsOf(leaders)
    {
      var round := Round(cfg, generation, improvements, betterMP, itr, r);
      if round.Err? {
        res := Err(round.error);
        return;
      }
      var next := round.value.0;
      ChainExtend(cfg, gens, leaders, next, next[0]);
      RecordsOfNext(leaders, next[0]);
      gens, leaders := gens + [next], leaders + [next[0]];
      generation, improvements, betterMP := round.value.0, round.value.1, round.value.2;
      itr := itr + 1;
    }
    res := Ok((generation, improvements));
  }

  /**
   * The constructor after `getStart`: the first generation, then
   * `iterations` rounds, then the best individual and its breakdown.
   */
  method Evolve(cfg: Config, r: Random)
    returns (res: Result<Run>, ghost founder: Individual, ghost gens: seq<seq<Individual>>, ghost leaders: seq<Individual>)
    requires 1 <= cfg.survivors <= cfg.populationSize
    modifies r
    ensures res.Ok? ==> GoodRun(cfg, res.value) && History(cfg, founder, gens, leaders, res.value)
    ensures res.Ok? ==> Start(cfg.startingLength, old(r.State())).Ok? && Start(cfg.startingLength, old(r.State())).value.0 == founder
    ensures res.Err? ==> res.error != Misconfigured
  {
    founder, gens, leaders := Individual([], 0), [], [];
    var start := GetStart(cfg.startingLength, r);
    if start.Err? {
      res := Err(start.error);
      return;
    }
    StartIsGenome(cfg.startingLength, old(r.State()));
    founder := start.value;
    var first := InitialGeneration(cfg, start.value, r);
    if first.Err? {
      res := Err(first.error);
      return;
    }
    forall k | 0 <= k < |first.value| ensures IsGenome(first.value[k].s) && Scored(first.value[k]) {
      MutantInheritsGenome(first.value[k], start.value);
    }
    var last;
    last, gens, leaders := Rounds(cfg, first.value, r);
    if last.Err? {
      res := Err(last.error);
      return;
    }
    var (generation, improvements) := last.value;
    var best := generation[0];
    GenomeValue(best.s);
    var breakdown := Explain(ParseNat(best.s).value);
    res := Ok(Run(improvements, best, breakdown));
  }

  /** `main`: refuse more survivors than the population before drawing anything, and only then; otherwise run. */
  method Launch(cfg: Config, r: Random)
    returns (res: Result<Run>, ghost founder: Individual, ghost gens: seq<seq<Individual>>, ghost leaders: seq<Individual>)
    requires cfg.survivors >= 1
    modifies r
    ensures res == Err(Misconfigured) <==> cfg.survivors > cfg.populationSize
    ensures cfg.survivors > cfg.populationSize ==> r.State() == old(r.State())
    ensures res.Ok? ==> cfg.survivors <= cfg.populationSize && GoodRun(cfg, res.value) && History(cfg, founder, gens, leaders, res.value)
    ensures res.Ok? ==> Start(cfg.startingLength, old(r.State())).Ok? && Start(cfg.startingLength, old(r.State())).value.0 == founder
  {
    if cfg.survivors > cfg.populationSize {
      res, founder, gens, leaders := Err(Misconfigured), Individual([], 0), [], [];
      return;
    }
    res, founder, gens, leaders := Evolve(cfg, r);
  }
}

=== FILE: explain.dfy ===
/**
 * `explain`: the step-by-step breakdown of the multiplicative persistence of
 * a number, written with the same arithmetic as `persistence`.
 */
module Explanation {
  import opened Decimal
  import opened Evaluator

  /** The digits of a text joined by " x ". */
  function JoinTimes(cs: string): string
    requires |cs| >= 1
  {
    if |cs| == 1 then cs else JoinTimes(cs[..|cs| - 1]) + " x " + [cs[|cs| - 1]]
  }

  /** Each character followed by " x ", as the append loop of `explain` leaves it. */
  function Spelled(cs: string): string
  {
    if cs == [] then [] else Spelled(cs[..|cs| - 1]) + [cs[|cs| - 1]] + " x "
  }

  /** Cutting the last three characters off the spelled digits leaves them joined by " x ". */
  lemma {:induction false} SpelledIsJoinedThenTimes(cs: string)
    requires |cs| >= 1
    ensures Spelled(cs) == JoinTimes(cs) + " x "
  {
    if |cs| > 1 {
      SpelledIsJoinedThenTimes(cs[..|cs| - 1]);
    } else {
      assert cs[..0] == [];
      assert cs == [cs[0]];
    }
  }

  const HeaderText: string := "Breakdown the multiplicative persistence of "

  function Header(n: nat): string
  {
    HeaderText + NatToString(n) + ":\n"
  }

  /** One step line: "MP <stepNo>: <d1> x ... x <dk> = <product>" and a newline. */
  function StepLine(stepNo: int, m: nat): string
  {
    "MP " + IntToString(stepNo) + ": " + JoinTimes(NatToString(m)) + " = " + NatToString(DigitProduct(m)) + "\n"
  }

  /** A step still to be written: its number as printed and the value whose digits it multiplies. */
  datatype Step = Step(stepNo: int, value: nat)

  /** The steps from `m` on, when `count` steps (a `short`) have been written already. */
  function Steps(m: nat, count: Short): seq<Step>
    decreases m
  {
    if m <= 9 then []
    else
      DigitProductLess(m);
      [Step(count + 1, m)] + Steps(DigitProduct(m), ShortWrap(count + 1))
  }

  /** The text of a run of steps, one line each. */
  function Lines(steps: seq<Step>): string
  {
    if steps == [] then [] else StepLine(steps[0].stepNo, steps[0].value) + Lines(steps[1..])
  }

  /** The whole text `explain(n)` returns. */
  function Breakdown(n: nat): string
  {
    Header(n) + Lines(Steps(n, 0))
  }

  /** There is one step line per multiplication step. */
  lemma {:induction false} StepsCount(m: nat, count: Short)
    ensures |Steps(m, count)| == Persistence(m)
    decreases m
  {
    if m > 9 {
      DigitProductLess(m);
      StepsCount(DigitProduct(m), ShortWrap(count + 1));
    }
  }

  /**
   * Step `j` multiplies the digits of the `j`-th value of the walk, and its
   * number is the step count as the `short` counter holds it.
   */
  lemma {:induction false} StepAt(m: nat, count: Short, j: nat)
    requires j < Persistence(m)
    ensures |Steps(m, count)| == Persistence(m)
    ensures Steps(m, count)[j] == Step(ShortWrap(count + j) + 1, Trajectory(m)[j])
    decreases m
  {
    StepsCount(m, count);
    DigitProductLess(m);
    var p := DigitProduct(m);
    var c1 := ShortWrap(count + 1);
    var steps, rest := Steps(m, count), Steps(p, c1);
    assert steps == [Step(count + 1, m)] + rest;
    assert Persistence(m) == 1 + Persistence(p);
    var tm, tp := Trajectory(m), Trajectory(p);
    assert tm == [m] + tp;
    if j == 0 {
      assert ShortWrap(count + j) == count;
    } else {
      StepAt(p, c1, j - 1);
      ShortWrapShift(count + 1, j - 1);
      assert steps[j] == rest[j - 1];
      assert tm[j] == tp[j - 1];
    }
  }

  lemma ShortWrapShift(x: int, j: int)
    ensures ShortWrap(ShortWrap(x) + j) == ShortWrap(x + j)
  {
  }

  /**
   * `explain(n)` writes exactly `persistence(n)` step lines; below 32768
   * steps they are numbered 1, 2, ..., and line `j` multiplies the digits of
   * the `j`-th value the evaluator passes through.
   */
  lemma ExplainMatchesPersistence(n: nat)
    requires Persistence(n) < 0x8000
    ensures |Steps(n, 0)| == Persistence(n)
    ensures forall j :: 0 <= j < Persistence(n) ==> Steps(n, 0)[j] == Step(j + 1, Trajectory(n)[j])
  {
    StepsCount(n, 0);
    forall j | 0 <= j < Persistence(n)
      ensures Steps(n, 0)[j] == Step(j + 1, Trajectory(n)[j])
    {
      StepAt(n, 0, j);
    }
  }

  /** Writing the next step line moves it from the steps still to come to the text written. */
  lemma WriteStep(text: string, m: nat, count: Short)
    requires m > 9
    ensures DigitProduct(m) < m
    ensures (text + StepLine(count + 1, m)) + Lines(Steps(DigitProduct(m), ShortWrap(count + 1)))
         == text + Lines(Steps(m, count))
  {
    DigitProductLess(m);
    var rest := Steps(DigitProduct(m), ShortWrap(count + 1));
    assert Steps(m, count) == [Step(count + 1, m)] + rest;
    assert ([Step(count + 1, m)] + rest)[1..] == rest;
  }

  /**
   * `explain(n)`: the header, then one step line per multiplication step,
   * while `n > 9`.
   */
  method Explain(n: nat) returns (text: string)
    ensures text == Breakdown(n)
  {
    text := HeaderText + NatToString(n) + ":\n";
    var m := n;
    var result: Short := 0;
    while m > 9
      invariant text + Lines(Steps(m, result)) == Breakdown(n)
      decreases m
    {
      WriteStep(text, m, result);
      var multi;
      text, multi := AppendStep(text, result, m);
      m := multi;
      result := ShortWrap(result + 1);
    }
  }

  /**
   * The body of the `explain` loop: "MP k: ", then every digit appended with
   * " x ", the last " x " deleted again, and " = " with the product.
   */
  method AppendStep(text: string, result: Short, m: nat) returns (text': string, multi: nat)
    ensures text' == text + StepLine(result + 1, m)
    ensures multi == DigitProduct(m)
  {
    var head := "MP " + IntToString(result + 1) + ": ";
    text' := text + head;
    ghost var lead := text';
    var cs := NatToString(m);
    ghost var ds := Digits(m);
    NatToStringDigits(m);
    multi := 1;
    var j := 0;
    while j < |cs|
      invariant 0 <= j <= |cs|
      invariant multi == Product(ds[..j])
      invariant text' == lead + Spelled(cs[..j])
    {
      assert CharValue(cs[j]) == ds[j];
      ProductPrefix(ds, j);
      SpelledPrefix(cs, j);
      multi := CharValue(cs[j]) * multi;
      text' := text' + [cs[j]] + " x ";
      j := j + 1;
    }
    assert ds[..j] == ds && cs[..j] == cs;
    CloseStep(text, result, m, text');
    text' := text'[..|text'| - 3];
    text' := text' + " = " + NatToString(multi) + "\n";
  }

  /** The text after the digit loop, with the trailing " x " replaced by the product, ends in the step line. */
  lemma CloseStep(text: string, result: Short, m: nat, spelled: string)
    requires spelled == text + ("MP " + IntToString(result + 1) + ": ") + Spelled(NatToString(m))
    ensures |spelled| >= 3
    ensures spelled[..|spelled| - 3] + " = " + NatToString(DigitProduct(m)) + "\n" == text + StepLine(result + 1, m)
  {
    var lead := text + ("MP " + IntToString(result + 1) + ": ");
    NatToStringDigits(m);
    FinishStep(lead, NatToString(m), NatToString(DigitProduct(m)));
    StepLineParts(text, result, m);
  }

  lemma SpelledPrefix(cs: string, j: nat)
    requires j < |cs|
    ensures Spelled(cs[..j + 1]) == Spelled(cs[..j]) + [cs[j]] + " x "
  {
    assert cs[..j + 1][..j] == cs[..j];
  }

  /** Deleting the trailing " x " and appending the product completes the step line. */
  lemma FinishStep(lead: string, cs: string, product: string)
    requires |cs| >= 1
    ensures |lead + Spelled(cs)| >= 3
    ensures (lead + Spelled(cs))[..|lead + Spelled(cs)| - 3] + " = " + product + "\n"
         == lead + JoinTimes(cs) + (" = " + product + "\n")
  {
    SpelledIsJoinedThenTimes(cs);
    var spelled := lead + Spelled(cs);
    assert spelled == (lead + JoinTimes(cs)) + " x ";
    DropLastThree(lead + JoinTimes(cs));
  }

  lemma StepLineParts(text: string, result: Short, m: nat)
    ensures text + StepLine(result + 1, m) ==
      (text + ("MP " + IntToString(result + 1) + ": ")) + JoinTimes(NatToString(m)) + (" = " + NatToString(DigitProduct(m)) + "\n")
  {
  }

  lemma DropLastThree(s: string)
    ensures (s + " x ")[..|s + " x "| - 3] == s
  {
  }

  // ---------------------------------------------------------------------
  // The worked breakdown of 277

  lemma DigitProductOf277()
    ensures Digits(277) == [2, 7, 7] && DigitProduct(277) == 98
  {
    assert Digits(27) == [2, 7] by { TwoDigitProduct(27); }
    ProductSingle(2);
    ProductSnoc([2], 7);
    ProductSnoc([2, 7], 7);
    assert [2] + [7] == [2, 7] && [2, 7] + [7] == [2, 7, 7];
  }

  lemma SmallNatToString(n: nat)
    requires n < 100
    ensures n < 10 ==> NatToString(n) == [DigitChar(n)]
    ensures n >= 10 ==> NatToString(n) == [DigitChar(n / 10), DigitChar(n % 10)]
  {
    if n >= 10 {
      TwoDigitProduct(n);
    }
  }

  /** The step line of a two-digit value. */
  lemma TwoDigitStepLine(k: nat, n: nat)
    requires 1 <= k <= 9 && 10 <= n < 100 && (n / 10) * (n % 10) < 100
    ensures StepLine(k, n) == "MP " + [DigitChar(k)] + ": " + [DigitChar(n / 10)] + " x " + [DigitChar(n % 10)]
                              + " = " + NatToString((n / 10) * (n % 10)) + "\n"
  {
    TwoDigitProduct(n);
    SmallNatToString(n);
    SmallNatToString(k);
    var cs := NatToString(n);
    assert cs[..1] == [cs[0]];
    assert JoinTimes(cs) == [DigitChar(n / 10)] + " x " + [DigitChar(n % 10)];
    assert IntToString(k) == [DigitChar(k)];
    StepLineParts([], k - 1, n);
  }

  lemma Text277()
    ensures NatToString(277) == "277" && JoinTimes("277") == "2 x 7 x 7"
  {
    DigitProductOf277();
    assert "277"[..2] == "27" && "27"[..1] == "2";
  }

  lemma Line1Of277()
    ensures StepLine(1, 277) == "MP 1: 2 x 7 x 7 = 98\n"
  {
    DigitProductOf277();
    Text277();
    SmallNatToString(1);
    SmallNatToString(98);
    assert IntToString(1) == "1" && NatToString(98) == "98";
  }

  lemma Line2Of277()
    ensures StepLine(2, 98) == "MP 2: 9 x 8 = 72\n"
  {
    TwoDigitStepLine(2, 98);
    SmallNatToString(72);
    assert DigitChar(2) == '2' && DigitChar(7) == '7' && DigitChar(8) == '8' && DigitChar(9) == '9';
  }

  lemma Line3Of277()
    ensures StepLine(3, 72) == "MP 3: 7 x 2 = 14\n"
  {
    TwoDigitStepLine(3, 72);
    SmallNatToString(14);
    assert DigitChar(1) == '1' && DigitChar(2) == '2' && DigitChar(3) == '3' && DigitChar(4) == '4';
    assert DigitChar(7) == '7';
  }

  lemma Line4Of277()
    ensures StepLine(4, 14) == "MP 4: 1 x 4 = 4\n"
  {
    TwoDigitStepLine(4, 14);
    SmallNatToString(4);
    assert DigitChar(1) == '1' && DigitChar(4) == '4';
  }

  lemma StepsOf277()
    ensures Steps(277, 0) == [Step(1, 277), Step(2, 98), Step(3, 72), Step(4, 14)]
  {
    DigitProductOf277();
    TwoDigitProduct(98);
    TwoDigitProduct(72);
    TwoDigitProduct(14);
    assert Steps(4, 4) == [];
    assert Steps(14, 3) == [Step(4, 14)];
    assert Steps(72, 2) == [Step(3, 72), Step(4, 14)];
    assert Steps(98, 1) == [Step(2, 98), Step(3, 72), Step(4, 14)];
  }

  lemma LinesFrom4Of277()
    ensures Lines([Step(4, 14)]) == "MP 4: 1 x 4 = 4\n"
  {
    assert [Step(4, 14)][1..] == [];
    Line4Of277();
  }

  lemma LinesFrom3Of277()
    ensures Lines([Step(3, 72), Step(4, 14)]) == "MP 3: 7 x 2 = 14\n" + "MP 4: 1 x 4 = 4\n"
  {
    LinesFrom4Of277();
    assert [Step(3, 72), Step(4, 14)][1..] == [Step(4, 14)];
    Line3Of277();
  }

  lemma LinesFrom2Of277()
    ensures Lines([Step(2, 98), Step(3, 72), Step(4, 14)]) ==
      "MP 2: 9 x 8 = 72\n" + ("MP 3: 7 x 2 = 14\n" + "MP 4: 1 x 4 = 4\n")
  {
    LinesFrom3Of277();
    assert [Step(2, 98), Step(3, 72), Step(4, 14)][1..] == [Step(3, 72), Step(4, 14)];
    Line2Of277();
  }

  lemma LinesOf277()
    ensures Lines([Step(1, 277), Step(2, 98), Step(3, 72), Step(4, 14)]) ==
      "MP 1: 2 x 7 x 7 = 98\n" + ("MP 2: 9 x 8 = 72\n" + ("MP 3: 7 x 2 = 14\n" + "MP 4: 1 x 4 = 4\n"))
  {
    LinesFrom2Of277();
    assert [Step(1, 277), Step(2, 98), Step(3, 72), Step(4, 14)][1..] == [Step(2, 98), Step(3, 72), Step(4, 14)];
    Line1Of277();
  }

  lemma HeaderOf277()
    ensures Header(277) == "Breakdown the multiplicative persistence of 277:\n"
  {
    DigitProductOf277();
    assert NatToString(277) == "277";
  }

  /**
   * 277 -> 98 -> 72 -> 14 -> 4: `explain(277)` is the header naming 277 and
   * then four step lines, as many as `persistence(277)` counts.
   */
  lemma BreakdownOf277()
    ensures Persistence(277) == 4 && |Steps(277, 0)| == 4
    ensures Breakdown(277) == Header(277) + Lines(Steps(277, 0))
    ensures Header(277) == "Breakdown the multiplicative persistence of 277:\n"
    ensures Lines(Steps(277, 0)) ==
      "MP 1: 2 x 7 x 7 = 98\n" + ("MP 2: 9 x 8 = 72\n" + ("MP 3: 7 x 2 = 14\n" + "MP 4: 1 x 4 = 4\n"))
  {
    StepsOf277();
    StepsCount(277, 0);
    LinesOf277();
    HeaderOf277();
  }
}

=== FILE: individual.dfy ===
/**
 * An individual of the search: a genome, the decimal text of a number, and
 * its multiplicative persistence, computed once when the individual is made.
 */
module Individuals {
  import opened Outcomes
  import opened Decimal
  import opened Evaluator

  /** `Individual(s, mp)`: the fields are set by the constructor and never reassigned. */
  datatype Individual = Individual(s: string, mp: Short)

  /** A genome as the founder and the mutation operators make them: one or more digits 1..9. */
  predicate IsGenome(s: string)
  {
    |s| >= 1 && forall i :: 0 <= i < |s| ==> '1' <= s[i] <= '9'
  }

  /** The cached score is `persistence(new BigInteger(s))` of the individual's own genome. */
  predicate Scored(ind: Individual)
  {
    match ParseNat(ind.s)
    case Some(v) => ind.mp == ShortWrap(Persistence(v))
    case None => false
  }

  /**
   * A genome is the decimal text of the number it denotes: the evaluator
   * multiplies exactly the genome's digits in its first step, and no digit
   * is 0.
   */
  lemma GenomeValue(s: string)
    requires IsGenome(s)
    ensures ParseNat(s).Some?
    ensures NatToString(ParseNat(s).value) == s
    ensures Digits(ParseNat(s).value) == DigitsOfString(s)
    ensures 0 !in Digits(ParseNat(s).value)
  {
    NatToStringOfParse(s);
    var v := ParseNat(s).value;
    NatToStringDigits(v);
  }

  /** `toString()`: "<s> with length <|s|> and a MP of <mp>". */
  function Describe(ind: Individual): (d: string)
    ensures |d| > |ind.s| && d[..|ind.s|] == ind.s
    ensures AllDigitChars(ind.s) ==> FirstWord(d) == ind.s
  {
    var d := ind.s + " with length " + IntToString(|ind.s|) + " and a MP of " + IntToString(ind.mp);
    DescribeParts(ind);
    if AllDigitChars(ind.s) then FirstWordOfDigits(ind.s, DescribeTail(ind)); d else d
  }

  /** The text up to the first space. */
  function FirstWord(s: string): (w: string)
    ensures |w| <= |s| && w == s[..|w|]
    ensures ' ' !in w
  {
    if s == [] || s[0] == ' ' then [] else [s[0]] + FirstWord(s[1..])
  }

  lemma {:induction false} FirstWordOfDigits(x: string, u: string)
    requires AllDigitChars(x)
    ensures FirstWord(x + " " + u) == x
  {
    if x != [] {
      assert (x + " " + u)[1..] == x[1..] + " " + u;
      assert IsDigitChar(x[0]);
      FirstWordOfDigits(x[1..], u);
    }
  }

  /** The text after the genome and the space that follows it. */
  function DescribeTail(ind: Individual): string
  {
    "with length " + IntToString(|ind.s|) + " and a MP of " + IntToString(ind.mp)
  }

  lemma DescribeParts(ind: Individual)
    ensures ind.s + " with length " + IntToString(|ind.s|) + " and a MP of " + IntToString(ind.mp) == ind.s + " " + DescribeTail(ind)
  {
  }

  /** The description of a digit genome names the individual: different individuals are described differently. */
  lemma DescribeDeterminesIndividual(a: Individual, b: Individual)
    requires AllDigitChars(a.s) && AllDigitChars(b.s)
    requires Describe(a) == Describe(b)
    ensures a == b
  {
    DescribeParts(a);
    DescribeParts(b);
    assert a.s == b.s;
    assert DescribeTail(a) == (a.s + " " + DescribeTail(a))[|a.s| + 1..];
    assert DescribeTail(b) == (b.s + " " + DescribeTail(b))[|b.s| + 1..];
    var pre := "with length " + IntToString(|a.s|) + " and a MP of ";
    assert DescribeTail(a) == pre + IntToString(a.mp);
    assert DescribeTail(b) == pre + IntToString(b.mp);
    assert IntToString(a.mp) == DescribeTail(a)[|pre|..];
    assert IntToString(b.mp) == DescribeTail(b)[|pre|..];
    IntToStringInjective(a.mp, b.mp);
  }
}

=== FILE: mutation.dfy ===
/**
 * Making individuals: the founder (`getStart`) and the mutant of a parent
 * (`getMutant`), which runs a point-mutation pass and then an indel pass
 * over the parent's genome.
 *
 * Each operation is a method that draws from a `Random`, as the program
 * does, and is proved against a function of the pending draws that says
 * what it yields and what it leaves to draw.
 */
module Mutation {
  import opened Outcomes
  import opened Decimal
  import opened Evaluator
  import opened Individuals
  import opened Rng

  /** `Character.forDigit(v + 1, 10)`: the digit character a draw of `nextInt(9)` stands for. */
  function DrawChar(v: Draw9): (c: char)
    ensures '1' <= c <= '9'
  {
    DigitChar(v + 1)
  }

  /** The result of a draw paired with what is left to draw; a failure carries no state. */
  function Paired<T>(res: Result<T>, rest: Draws): Result<(T, Draws)>
  {
    match res
    case Ok(x) => Ok((x, rest))
    case Err(e) => Err(e)
  }

  // ---------------------------------------------------------------------
  // getReplacementDigit
  // ---------------------------------------------------------------------

  /** Rejection sampling: draw digits until one differs from `t`. */
  function Replacement(t: char, d: Draws): Option<(char, Draws)>
    decreases |d.ints|
  {
    if d.ints == [] then None
    else
      var c := DrawChar(d.ints[0]);
      var rest := Draws(d.ints[1..], d.coins);
      if c == t then Replacement(t, rest) else Some((c, rest))
  }

  /**
   * The replacement is the first drawn digit that differs from `t`, and the
   * draws up to and including it are consumed; there is none exactly when
   * every pending draw gives `t` back. No coin is drawn.
   */
  lemma {:induction false} ReplacementIsFirstDifferentDraw(t: char, d: Draws)
    ensures Replacement(t, d).None? <==> forall i :: 0 <= i < |d.ints| ==> DrawChar(d.ints[i]) == t
    ensures Replacement(t, d).Some? ==>
      exists k :: 0 <= k < |d.ints| && DrawChar(d.ints[k]) != t
        && (forall i :: 0 <= i < k ==> DrawChar(d.ints[i]) == t)
        && Replacement(t, d).value == (DrawChar(d.ints[k]), Draws(d.ints[k + 1..], d.coins))
    decreases |d.ints|
  {
    if d.ints != [] {
      var rest := Draws(d.ints[1..], d.coins);
      ReplacementIsFirstDifferentDraw(t, rest);
      if DrawChar(d.ints[0]) == t {
        if Replacement(t, d).Some? {
          var k :| 0 <= k < |rest.ints| && DrawChar(rest.ints[k]) != t
            && (forall i :: 0 <= i < k ==> DrawChar(rest.ints[i]) == t)
            && Replacement(t, rest).value == (DrawChar(rest.ints[k]), Draws(rest.ints[k + 1..], d.coins));
          assert d.ints[k + 1 + 1..] == rest.ints[k + 1..];
          assert forall i :: 0 <= i < k + 1 ==> DrawChar(d.ints[i]) == t by {
            forall i | 0 <= i < k + 1 ensures DrawChar(d.ints[i]) == t {
              if i > 0 {
                assert d.ints[i] == rest.ints[i - 1];
              }
            }
          }
        } else {
          forall i | 0 <= i < |d.ints| ensures DrawChar(d.ints[i]) == t {
            if i > 0 {
              assert d.ints[i] == rest.ints[i - 1];
            }
          }
        }
      } else {
        assert Replacement(t, d).value == (DrawChar(d.ints[0]), Draws(d.ints[0 + 1..], d.coins));
      }
    }
  }

  /** `getReplacementDigit(t, r)`: calls itself while the drawn digit equals `t`. */
  method GetReplacementDigit(t: char, r: Random) returns (c: Option<char>)
    modifies r
    decreases |r.ints|
    ensures c.None? <==> Replacement(t, old(r.State())).None?
    ensures c.Some? ==> Replacement(t, old(r.State())) == Some((c.value, r.State()))
    ensures c.None? ==> r.State() == Draws([], old(r.coins))
  {
    var v := r.NextInt9();
    if v.None? {
      return None;
    }
    var drawn := DrawChar(v.value);
    if drawn == t {
      c := GetReplacementDigit(t, r);
    } else {
      c := Some(drawn);
    }
  }

  // ---------------------------------------------------------------------
  // The point-mutation pass of getMutant
  // ---------------------------------------------------------------------

  /** `pre` in front of the text of a pass that did not fail. */
  function PrependText(pre: string, o: Option<(string, Draws)>): Option<(string, Draws)>
  {
    match o
    case None => None
    case Some((m, rest)) => Some((pre + m, rest))
  }

  lemma PrependTextSnoc(pre: string, c: char, o: Option<(string, Draws)>)
    ensures PrependText(pre + [c], o) == PrependText(pre, PrependText([c], o))
  {
    if o.Some? {
      assert pre + [c] + o.value.0 == pre + ([c] + o.value.0);
    }
  }

  /**
   * For each character of the parent, in order: one coin says whether it is
   * replaced; a replaced character takes the next digit `Replacement` draws.
   */
  function PointPass(parent: string, d: Draws): Option<(string, Draws)>
    decreases |parent|
  {
    if parent == [] then Some(([], d))
    else if d.coins == [] then None
    else
      var d1 := Draws(d.ints, d.coins[1..]);
      if !d.coins[0] then PrependText([parent[0]], PointPass(parent[1..], d1))
      else
        match Replacement(parent[0], d1)
        case None => None
        case Some((c, d2)) => PrependText([c], PointPass(parent[1..], d2))
  }

  /**
   * The point pass keeps the length, draws one coin per character, and
   * changes exactly the characters whose coin came up: each of those
   * becomes a different digit 1..9, every other one stays.
   */
  lemma {:induction false} PointPassChanges(parent: string, d: Draws)
    ensures PointPass(parent, d).Some? ==>
      |PointPass(parent, d).value.0| == |parent| <= |d.coins|
      && PointPass(parent, d).value.1.coins == d.coins[|parent|..]
      && forall i :: 0 <= i < |parent| ==>
           if d.coins[i] then PointPass(parent, d).value.0[i] != parent[i] && '1' <= PointPass(parent, d).value.0[i] <= '9'
           else PointPass(parent, d).value.0[i] == parent[i]
  {
    if parent != [] && d.coins != [] {
      var d1 := Draws(d.ints, d.coins[1..]);
      var tail := parent[1..];
      if !d.coins[0] {
        PointPassChanges(tail, d1);
        if PointPass(parent, d).Some? {
          var m := PointPass(parent, d).value.0;
          assert m[1..] == PointPass(tail, d1).value.0;
          assert d1.coins[|tail|..] == d.coins[|parent|..];
          forall i | 1 <= i < |parent|
            ensures if d.coins[i] then m[i] != parent[i] && '1' <= m[i] <= '9' else m[i] == parent[i]
          {
            assert m[i] == m[1..][i - 1] && parent[i] == tail[i - 1] && d.coins[i] == d1.coins[i - 1];
          }
        }
      } else if Replacement(parent[0], d1).Some? {
        var (c, d2) := Replacement(parent[0], d1).value;
        ReplacementIsFirstDifferentDraw(parent[0], d1);
        assert c != parent[0] && d2.coins == d1.coins;
        PointPassChanges(tail, d2);
        if PointPass(parent, d).Some? {
          var m := PointPass(parent, d).value.0;
          assert m[1..] == PointPass(tail, d2).value.0;
          assert d2.coins[|tail|..] == d.coins[|parent|..];
          forall i | 1 <= i < |parent|
            ensures if d.coins[i] then m[i] != parent[i] && '1' <= m[i] <= '9' else m[i] == parent[i]
          {
            assert m[i] == m[1..][i - 1] && parent[i] == tail[i - 1] && d.coins[i] == d2.coins[i - 1];
          }
        }
      }
    }
  }

  /** The first loop of `getMutant`: append each character, or its replacement when the coin says so. */
  method PointMutate(parent: string, r: Random) returns (mutant: Option<string>)
    modifies r
    ensures PointPass(parent, old(r.State())).None? ==> mutant.None?
    ensures PointPass(parent, old(r.State())).Some? ==>
      mutant == Some(PointPass(parent, old(r.State())).value.0) && r.State() == PointPass(parent, old(r.State())).value.1
  {
    var buf := "";
    var j := 0;
    assert parent[j..] == parent;
    if PointPass(parent, r.State()).Some? {
      assert buf + PointPass(parent, r.State()).value.0 == PointPass(parent, r.State()).value.0;
    }
    while j < |parent|
      invariant 0 <= j <= |parent|
      invariant PointPass(parent, old(r.State())) == PrependText(buf, PointPass(parent[j..], r.State()))
    {
      var t := parent[j];
      assert parent[j..][0] == t && parent[j..][1..] == parent[j + 1..];
      var coin := r.NextCoin();
      if coin.None? {
        return None;
      }
      if coin.value {
        var c := GetReplacementDigit(t, r);
        if c.None? {
          return None;
        }
        PrependTextSnoc(buf, c.value, PointPass(parent[j + 1..], r.State()));
        buf := buf + [c.value];
      } else {
        PrependTextSnoc(buf, t, PointPass(parent[j + 1..], r.State()));
        buf := buf + [t];
      }
      j := j + 1;
    }
    assert buf + [] == buf;
    mutant := Some(buf);
  }

  // ---------------------------------------------------------------------
  // The indel pass of getMutant
  // ---------------------------------------------------------------------

  /** `StringBuilder.deleteCharAt(i)`. */
  function DeleteAt(buf: string, i: nat): (r: string)
    requires i < |buf|
    ensures |r| == |buf| - 1
    ensures multiset(r) + multiset{buf[i]} == multiset(buf)
  {
    assert buf == buf[..i] + [buf[i]] + buf[i + 1..];
    buf[..i] + buf[i + 1..]
  }

  /** `StringBuilder.insert(i, charAt(i))`: the character at `i` is doubled. */
  function InsertCopyAt(buf: string, i: nat): (r: string)
    requires i < |buf|
    ensures |r| == |buf| + 1
    ensures multiset(r) == multiset(buf) + multiset{buf[i]}
  {
    assert buf == buf[..i] + buf[i..];
    buf[..i] + [buf[i]] + buf[i..]
  }

  /**
   * The indel walk from position `i`: while `i` is inside the buffer, one
   * coin says whether there is an indel at `i`; when there is, a second coin
   * chooses deletion (true) or insertion of a copy (false). Then `i` moves
   * one on, over the shortened or lengthened buffer.
   */
  function IndelWalk(buf: string, i: nat, d: Draws): Option<(string, Draws)>
    decreases |d.coins|
  {
    if i >= |buf| then Some((buf, d))
    else if d.coins == [] then None
    else if !d.coins[0] then IndelWalk(buf, i + 1, Draws(d.ints, d.coins[1..]))
    else if |d.coins| == 1 then None
    else if d.coins[1] then IndelWalk(DeleteAt(buf, i), i + 1, Draws(d.ints, d.coins[2..]))
    else IndelWalk(InsertCopyAt(buf, i), i + 1, Draws(d.ints, d.coins[2..]))
  }

  /**
   * The indel pass only deletes and copies characters: every character of
   * its result was in the buffer. It draws no integer and consumes a prefix
   * of the coins.
   */
  lemma {:induction false} IndelWalkAlphabet(buf: string, i: nat, d: Draws)
    ensures IndelWalk(buf, i, d).Some? ==>
      (forall c :: c in IndelWalk(buf, i, d).value.0 ==> c in buf)
      && IndelWalk(buf, i, d).value.1.ints == d.ints
      && |IndelWalk(buf, i, d).value.1.coins| <= |d.coins|
      && IndelWalk(buf, i, d).value.1.coins == d.coins[|d.coins| - |IndelWalk(buf, i, d).value.1.coins|..]
    decreases |d.coins|
  {
    if i < |buf| && d.coins != [] {
      if !d.coins[0] {
        IndelWalkAlphabet(buf, i + 1, Draws(d.ints, d.coins[1..]));
      } else if |d.coins| > 1 {
        var d2 := Draws(d.ints, d.coins[2..]);
        if d.coins[1] {
          var b := DeleteAt(buf, i);
          IndelWalkAlphabet(b, i + 1, d2);
          assert forall c :: c in b ==> c in buf by {
            assert b == buf[..i] + buf[i + 1..];
            assert buf == buf[..i] + [buf[i]] + buf[i + 1..];
          }
        } else {
          var b := InsertCopyAt(buf, i);
          IndelWalkAlphabet(b, i + 1, d2);
          assert forall c :: c in b ==> c in buf by {
            assert b == buf[..i] + [buf[i]] + buf[i..];
            assert buf == buf[..i] + buf[i..];
          }
        }
      }
    }
  }

  /** With no indel coin among the ones it draws, the indel pass returns the buffer unchanged. */
  lemma {:induction false} IndelWalkWithoutIndels(buf: string, i: nat, d: Draws)
    requires i <= |buf| && |buf| - i <= |d.coins|
    requires forall k :: 0 <= k < |buf| - i ==> !d.coins[k]
    ensures IndelWalk(buf, i, d) == Some((buf, Draws(d.ints, d.coins[|buf| - i..])))
    decreases |buf| - i
  {
    if i < |buf| {
      var d1 := Draws(d.ints, d.coins[1..]);
      assert forall k :: 0 <= k < |buf| - (i + 1) ==> !d1.coins[k] by {
        forall k | 0 <= k < |buf| - (i + 1) ensures !d1.coins[k] {
          assert d1.coins[k] == d.coins[k + 1];
        }
      }
      IndelWalkWithoutIndels(buf, i + 1, d1);
      assert d1.coins[|buf| - (i + 1)..] == d.coins[|buf| - i..];
    }
  }

  /**
   * After a deletion at `i` the walk moves on, so the character that slid
   * into `i` gets no coin: deleting the '1' of "12" leaves "2" untouched.
   */
  lemma DeletionSkipsNext()
    ensures IndelWalk("12", 0, Draws([], [true, true])) == Some(("2", Draws([], [])))
  {
    var coins := [true, true];
    assert DeleteAt("12", 0) == "2" && coins[2..] == [];
    assert IndelWalk("2", 1, Draws([], [])) == Some(("2", Draws([], [])));
    assert IndelWalk("12", 0, Draws([], coins)) == IndelWalk("2", 1, Draws([], []));
  }

  /**
   * After a doubling at `i` the walk moves on to the original character,
   * which can be doubled again: "5" can become "555".
   */
  lemma DoublingRevisits()
    ensures IndelWalk("5", 0, Draws([], [true, false, true, false, false])) == Some(("555", Draws([], [])))
  {
    var coins := [true, false, true, false, false];
    assert InsertCopyAt("5", 0) == "55" && coins[2..] == [true, false, false];
    SecondDoubling();
  }

  /** The second step of `DoublingRevisits`: the original '5', now at position 1, is doubled again. */
  lemma SecondDoubling()
    ensures IndelWalk("55", 1, Draws([], [true, false, false])) == Some(("555", Draws([], [])))
  {
    var coins := [true, false, false];
    assert InsertCopyAt("55", 1) == "555" && coins[2..] == [false] && [false][1..] == [];
    assert IndelWalk("555", 3, Draws([], [])) == Some(("555", Draws([], [])));
    assert IndelWalk("555", 2, Draws([], [false])) == IndelWalk("555", 3, Draws([], []));
  }

  /** The second loop of `getMutant`: `mutantLength` follows the buffer's length as it shrinks and grows. */
  method IndelMutate(point: string, r: Random) returns (mutant: Option<string>)
    modifies r
    ensures IndelWalk(point, 0, old(r.State())).None? ==> mutant.None?
    ensures IndelWalk(point, 0, old(r.State())).Some? ==>
      mutant == Some(IndelWalk(point, 0, old(r.State())).value.0) && r.State() == IndelWalk(point, 0, old(r.State())).value.1
  {
    var buf := point;
    var mutantLength := |buf|;
    var i := 0;
    while i < mutantLength
      invariant mutantLength == |buf|
      invariant IndelWalk(point, 0, old(r.State())) == IndelWalk(buf, i, r.State())
      decreases |r.coins|
    {
      var indel := r.NextCoin();
      if indel.None? {
        return None;
      }
      if indel.value {
        var delete := r.NextCoin();
        if delete.None? {
          return None;
        }
        if delete.value {
          buf := DeleteAt(buf, i);
          mutantLength := mutantLength - 1;
        } else {
          buf := InsertCopyAt(buf, i);
          mutantLength := mutantLength + 1;
        }
      }
      i := i + 1;
    }
    mutant := Some(buf);
  }

  // ---------------------------------------------------------------------
  // getMutant
  // ---------------------------------------------------------------------

  /** The point pass, then the indel pass, then `new BigInteger(s)` and its persistence. */
  function Mutant(parent: string, d: Draws): Result<(Individual, Draws)>
  {
    match PointPass(parent, d)
    case None => Err(OutOfDraws)
    case Some((p, d1)) =>
      match IndelWalk(p, 0, d1)
      case None => Err(OutOfDraws)
      case Some((s, d2)) =>
        match ParseNat(s)
        case None => Err(NumberFormat)
        case Some(v) => Ok((Individual(s, ShortWrap(Persistence(v))), d2))
  }

  /** Both passes ran to the end and the indel pass deleted every character. */
  predicate DeletedAll(parent: string, d: Draws)
  {
    match PointPass(parent, d)
    case None => false
    case Some((p, d1)) =>
      match IndelWalk(p, 0, d1)
      case None => false
      case Some((s, _)) => s == []
  }

  /**
   * A mutant of a genome is a genome scored with its own persistence,
   * unless the indel pass deleted every digit: then `new BigInteger("")`
   * fails with a number-format error.
   */
  lemma MutantOfGenome(parent: string, d: Draws)
    requires IsGenome(parent)
    ensures Mutant(parent, d).Ok? ==> IsGenome(Mutant(parent, d).value.0.s) && Scored(Mutant(parent, d).value.0)
    ensures Mutant(parent, d) == Err(NumberFormat) <==> DeletedAll(parent, d)
  {
    PointPassChanges(parent, d);
    if PointPass(parent, d).Some? {
      var (p, d1) := PointPass(parent, d).value;
      assert forall c :: c in p ==> '1' <= c <= '9' by {
        forall c | c in p ensures '1' <= c <= '9' {
          var i :| 0 <= i < |p| && p[i] == c;
        }
      }
      IndelWalkAlphabet(p, 0, d1);
      if IndelWalk(p, 0, d1).Some? {
        var s := IndelWalk(p, 0, d1).value.0;
        assert forall i :: 0 <= i < |s| ==> '1' <= s[i] <= '9' by {
          forall i | 0 <= i < |s| ensures '1' <= s[i] <= '9' {
            assert s[i] in s;
          }
        }
        if s != [] {
          GenomeValue(s);
        }
      }
    }
  }

  /** `getMutant(individual, r)`. */
  method GetMutant(ind: Individual, r: Random) returns (res: Result<Individual>)
    modifies r
    ensures Mutant(ind.s, old(r.State())) == Paired(res, r.State())
    ensures res.Err? ==> res.error != Misconfigured
  {
    var point := PointMutate(ind.s, r);
    if point.None? {
      return Err(OutOfDraws);
    }
    var s := IndelMutate(point.value, r);
    if s.None? {
      return Err(OutOfDraws);
    }
    var n := ParseNat(s.value);
    if n.None? {
      return Err(NumberFormat);
    }
    var mp := ComputePersistence(n.value);
    res := Ok(Individual(s.value, mp));
  }

  /** `child` is what `getMutant(parent, r)` yields for some pending draws. */
  ghost predicate IsMutantOf(child: Individual, parent: Individual)
  {
    exists d :: Mutant(parent.s, d).Ok? && Mutant(parent.s, d).value.0 == child
  }

  lemma MutantWitness(parent: Individual, d: Draws, res: Result<Individual>, rest: Draws)
    requires Mutant(parent.s, d) == Paired(res, rest) && res.Ok?
    ensures IsMutantOf(res.value, parent)
  {
    assert Mutant(parent.s, d).Ok? && Mutant(parent.s, d).value.0 == res.value;
  }

  /** Mutation keeps the population made of scored genomes. */
  lemma MutantInheritsGenome(child: Individual, parent: Individual)
    requires IsGenome(parent.s) && IsMutantOf(child, parent)
    ensures IsGenome(child.s) && Scored(child)
  {
    var d :| Mutant(parent.s, d).Ok? && Mutant(parent.s, d).value.0 == child;
    MutantOfGenome(parent.s, d);
  }

  // ---------------------------------------------------------------------
  // getStart
  // ---------------------------------------------------------------------

  /** The founder's text: one digit character per draw. */
  function StartText(ints: seq<Draw9>): string
  {
    seq(|ints|, i requires 0 <= i < |ints| => DrawChar(ints[i]))
  }

  /** `len` integer draws make the founder's genome; with `len` 0 the text is empty and does not parse. */
  function Start(len: nat, d: Draws): Result<(Individual, Draws)>
  {
    if |d.ints| < len then Err(OutOfDraws)
    else
      var s := StartText(d.ints[..len]);
      match ParseNat(s)
      case None => Err(NumberFormat)
      case Some(v) => Ok((Individual(s, ShortWrap(Persistence(v))), Draws(d.ints[len..], d.coins)))
  }

  /**
   * The founder is a scored genome of exactly `len` digits, the i-th being
   * the i-th draw plus one; it exists exactly when `len` is positive and
   * there are `len` draws, and no coin is drawn.
   */
  lemma StartIsGenome(len: nat, d: Draws)
    ensures Start(len, d).Ok? <==> 1 <= len <= |d.ints|
    ensures Start(len, d) == Err(NumberFormat) <==> len == 0
    ensures Start(len, d).Ok? ==>
      var (ind, rest) := Start(len, d).value;
      IsGenome(ind.s) && Scored(ind) && |ind.s| == len
      && (forall i :: 0 <= i < len ==> ind.s[i] == DrawChar(d.ints[i]))
      && rest == Draws(d.ints[len..], d.coins)
  {
    if len <= |d.ints| {
      var s := StartText(d.ints[..len]);
      if len >= 1 {
        assert IsGenome(s);
        GenomeValue(s);
      } else {
        assert s == [];
      }
    }
  }

  /** `getStart(r)`: `append(nextInt(9) + 1)` once per digit of the founder. */
  method GetStart(len: nat, r: Random) returns (res: Result<Individual>)
    modifies r
    ensures Start(len, old(r.State())) == Paired(res, r.State())
    ensures res.Err? ==> res.error != Misconfigured
  {
    var sb := "";
    var i := 0;
    while i < len
      invariant 0 <= i <= len
      invariant i <= |old(r.ints)| && r.ints == old(r.ints)[i..] && r.coins == old(r.coins)
      invariant sb == StartText(old(r.ints)[..i])
    {
      var v := r.NextInt9();
      if v.None? {
        return Err(OutOfDraws);
      }
      assert old(r.ints)[..i + 1] == old(r.ints)[..i] + [v.value];
      var digit: nat := v.value as int + 1;
      assert Digits(digit) == [digit];
      sb := sb + NatToString(digit);
      i := i + 1;
    }
    var n := ParseNat(sb);
    if n.None? {
      return Err(NumberFormat);
    }
    var mp := ComputePersistence(n.value);
    res := Ok(Individual(sb, mp));
  }
}

=== FILE: outcomes.dfy ===
/** Optional values and the failures a run of the search can end in. */
module Outcomes {

  datatype Option<+T> = None | Some(value: T)

  /** Why a run, a mutation or a founder could not be produced. */
  datatype Failure =
    | OutOfDraws      // the supplied random draws ran out (a Java generator never does)
    | NumberFormat    // `new BigInteger(s)` rejected `s`, e.g. an empty genome
    | Misconfigured   // more survivors than population, rejected before any work

  datatype Result<+T> = Ok(value: T) | Err(error: Failure)
}

=== FILE: ranking.dfy ===
/**
 * `SortDescByMP`, the comparator that ranks a generation, and the stable
 * descending order `ArrayList.sort` gives with it.
 */
module Ranking {
  import opened Decimal
  import opened Individuals

  /**
   * `compare(a, b) = b.mp - a.mp`: negative when `a` scores higher, so higher
   * scores come first. Two `short`s promoted to `int` cannot overflow.
   */
  function Compare(a: Individual, b: Individual): (r: Int32)
    ensures r < 0 <==> a.mp > b.mp
    ensures r == 0 <==> a.mp == b.mp
    ensures r > 0 <==> a.mp < b.mp
    ensures -0xFFFF <= r <= 0xFFFF
  {
    b.mp - a.mp
  }

  /** The comparator contract: antisymmetric, transitive, consistent on ties. */
  lemma CompareIsTotalPreorder(a: Individual, b: Individual, c: Individual)
    ensures Compare(a, b) == -Compare(b, a)
    ensures Compare(a, b) <= 0 || Compare(b, a) <= 0
    ensures Compare(a, b) <= 0 && Compare(b, c) <= 0 ==> Compare(a, c) <= 0
    ensures Compare(a, b) == 0 ==> Compare(a, c) == Compare(b, c)
  {
  }

  /** No individual comes after one that the comparator puts behind it. */
  predicate SortedDesc(g: seq<Individual>)
  {
    forall i, j :: 0 <= i < j < |g| ==> Compare(g[i], g[j]) <= 0
  }

  /** The individuals scoring `k`, in the order they appear. */
  function WithScore(g: seq<Individual>, k: int): seq<Individual>
  {
    if g == [] then [] else (if g[0].mp == k then [g[0]] else []) + WithScore(g[1..], k)
  }

  lemma {:induction false} WithScoreMembers(g: seq<Individual>, k: int, x: Individual)
    ensures x in WithScore(g, k) <==> x in g && x.mp == k
  {
    if g != [] {
      WithScoreMembers(g[1..], k, x);
      assert g == [g[0]] + g[1..];
    }
  }

  /** Put `x` before the first individual that does not score strictly higher. */
  function Insert(x: Individual, t: seq<Individual>): seq<Individual>
  {
    if t == [] || t[0].mp <= x.mp then [x] + t else [t[0]] + Insert(x, t[1..])
  }

  lemma {:induction false} InsertPermutes(x: Individual, t: seq<Individual>)
    ensures multiset(Insert(x, t)) == multiset(t) + multiset{x}
  {
    if !(t == [] || t[0].mp <= x.mp) {
      InsertPermutes(x, t[1..]);
      assert t == [t[0]] + t[1..];
    }
  }

  lemma {:induction false} InsertKeepsTies(x: Individual, t: seq<Individual>, k: int)
    ensures WithScore(Insert(x, t), k) == if x.mp == k then [x] + WithScore(t, k) else WithScore(t, k)
  {
    var r := Insert(x, t);
    if t == [] || t[0].mp <= x.mp {
      assert r[1..] == t;
    } else {
      InsertKeepsTies(x, t[1..], k);
      assert r[1..] == Insert(x, t[1..]);
    }
  }

  lemma {:induction false} InsertSorts(x: Individual, t: seq<Individual>)
    requires SortedDesc(t)
    ensures SortedDesc(Insert(x, t))
  {
    var r := Insert(x, t);
    if t == [] || t[0].mp <= x.mp {
      assert r[1..] == t;
    } else {
      var rest := Insert(x, t[1..]);
      InsertSorts(x, t[1..]);
      InsertPermutes(x, t[1..]);
      assert r == [t[0]] + rest;
      forall j | 0 <= j < |rest| ensures t[0].mp >= rest[j].mp {
        assert rest[j] in multiset(rest);
        if rest[j] != x {
          assert rest[j] in multiset(t[1..]);
          var i :| 0 <= i < |t[1..]| && t[1..][i] == rest[j];
          assert t[i + 1] == rest[j];
        }
      }
    }
  }

  /**
   * `generation.sort(new SortDescByMP())`: `List.sort` is stable, so the
   * result is ordered by descending score, is a permutation of the input,
   * and keeps individuals with equal scores in their input order.
   */
  function StableSort(g: seq<Individual>): (r: seq<Individual>)
    ensures |r| == |g|
    ensures SortedDesc(r)
    ensures multiset(r) == multiset(g)
    ensures forall k :: WithScore(r, k) == WithScore(g, k)
  {
    if g == [] then []
    else
      var rest := StableSort(g[1..]);
      StableSortStep(g, rest);
      Insert(g[0], rest)
  }

  lemma StableSortStep(g: seq<Individual>, rest: seq<Individual>)
    requires g != [] && SortedDesc(rest)
    requires multiset(rest) == multiset(g[1..])
    requires forall k :: WithScore(rest, k) == WithScore(g[1..], k)
    ensures |Insert(g[0], rest)| == |g|
    ensures SortedDesc(Insert(g[0], rest))
    ensures multiset(Insert(g[0], rest)) == multiset(g)
    ensures forall k :: WithScore(Insert(g[0], rest), k) == WithScore(g, k)
  {
    InsertSorts(g[0], rest);
    InsertPermutes(g[0], rest);
    assert g == [g[0]] + g[1..];
    assert |Insert(g[0], rest)| == |multiset(Insert(g[0], rest))| == |multiset(g)| == |g|;
    forall k ensures WithScore(Insert(g[0], rest), k) == WithScore(g, k) {
      InsertKeepsTies(g[0], rest, k);
    }
  }

  lemma HeadIsScored(g: seq<Individual>)
    ensures g != [] ==> WithScore(g, g[0].mp) != []
  {
    if g != [] {
      WithScoreMembers(g, g[0].mp, g[0]);
    }
  }

  /** In a descending order the first individual scores at least as high as any other. */
  lemma LeaderIsMax(g: seq<Individual>, x: Individual)
    requires SortedDesc(g) && x in g
    ensures g[0].mp >= x.mp
  {
    var i :| 0 <= i < |g| && g[i] == x;
    if i > 0 {
      assert Compare(g[0], g[i]) <= 0;
    }
  }

  lemma MemberOfOther(a: seq<Individual>, b: seq<Individual>, x: Individual)
    requires x in a && WithScore(a, x.mp) == WithScore(b, x.mp)
    ensures x in b
  {
    WithScoreMembers(a, x.mp, x);
    WithScoreMembers(b, x.mp, x);
  }

  /** Two stable descending orders of the same individuals start with the same individual. */
  lemma SameLeader(a: seq<Individual>, b: seq<Individual>)
    requires a != [] && b != []
    requires SortedDesc(a) && SortedDesc(b)
    requires forall k :: WithScore(a, k) == WithScore(b, k)
    ensures a[0] == b[0]
  {
    var m := a[0].mp;
    MemberOfOther(a, b, a[0]);
    MemberOfOther(b, a, b[0]);
    LeaderIsMax(b, a[0]);
    LeaderIsMax(a, b[0]);
    assert WithScore(a, m)[0] == a[0];
    assert WithScore(b, m)[0] == b[0];
  }

  lemma SortedTail(g: seq<Individual>)
    requires g != [] && SortedDesc(g)
    ensures SortedDesc(g[1..])
  {
    forall i, j | 0 <= i < j < |g| - 1 ensures Compare(g[1..][i], g[1..][j]) <= 0 {
      assert g[1..][i] == g[i + 1] && g[1..][j] == g[j + 1];
    }
  }

  /** Dropping the same first individual from both keeps the per-score orders equal. */
  lemma TailsAgree(a: seq<Individual>, b: seq<Individual>, k: int)
    requires a != [] && b != [] && a[0] == b[0]
    requires WithScore(a, k) == WithScore(b, k)
    ensures WithScore(a[1..], k) == WithScore(b[1..], k)
  {
    if k == a[0].mp {
      assert WithScore(a, k) == [a[0]] + WithScore(a[1..], k);
      assert WithScore(b, k) == [b[0]] + WithScore(b[1..], k);
      assert WithScore(a, k)[1..] == WithScore(a[1..], k);
      assert WithScore(b, k)[1..] == WithScore(b[1..], k);
    } else {
      assert WithScore(a, k) == WithScore(a[1..], k);
      assert WithScore(b, k) == WithScore(b[1..], k);
    }
  }

  /**
   * Order by descending score and the order among equal scores fix the
   * sequence: any stable descending sort, whatever its algorithm, yields
   * `StableSort`.
   */
  lemma {:induction false} StableOrderIsUnique(a: seq<Individual>, b: seq<Individual>)
    requires SortedDesc(a) && SortedDesc(b)
    requires forall k :: WithScore(a, k) == WithScore(b, k)
    ensures a == b
  {
    HeadIsScored(a);
    HeadIsScored(b);
    if a != [] && b != [] {
      SameLeader(a, b);
      SortedTail(a);
      SortedTail(b);
      forall k ensures WithScore(a[1..], k) == WithScore(b[1..], k) {
        TailsAgree(a, b, k);
      }
      StableOrderIsUnique(a[1..], b[1..]);
      assert a == [a[0]] + a[1..];
      assert b == [b[0]] + b[1..];
    }
  }

  /**
   * The sort puts a top scorer first; when the first individual of the
   * generation already has the top score, stability keeps it first.
   */
  lemma SortedLeader(g: seq<Individual>)
    requires g != []
    ensures forall x :: x in g ==> StableSort(g)[0].mp >= x.mp
    ensures StableSort(g)[0].mp == g[0].mp ==> StableSort(g)[0] == g[0]
  {
    var r := StableSort(g);
    forall x | x in g ensures r[0].mp >= x.mp {
      assert x in multiset(g);
      LeaderIsMax(r, x);
    }
    if r[0].mp == g[0].mp {
      var m := g[0].mp;
      assert WithScore(g, m)[0] == g[0];
      assert WithScore(r, m)[0] == r[0];
    }
  }

  /**
   * `subList(NR_OF_SURVIVORS, size()).clear()` after the sort: the kept
   * prefix holds exactly `survivors` individuals, each scoring at least as
   * high as every one dropped, and kept and dropped together are the
   * generation.
   */
  lemma TruncationKeepsBest(g: seq<Individual>, survivors: nat)
    requires survivors <= |g|
    ensures |StableSort(g)[..survivors]| == survivors
    ensures forall i, j :: 0 <= i < survivors <= j < |g| ==> StableSort(g)[i].mp >= StableSort(g)[j].mp
    ensures multiset(StableSort(g)[..survivors]) + multiset(StableSort(g)[survivors..]) == multiset(g)
  {
    var r := StableSort(g);
    assert r == r[..survivors] + r[survivors..];
  }
}

=== FILE: rng.dfy ===
/**
 * The pseudo-random generator the search draws from.
 *
 * The program asks its `java.util.Random` for two kinds of values: a
 * uniform integer in [0, 9) (`nextInt(9)`), and a double that is at once
 * compared with a fixed chance (`nextDouble() < chance`). The model does not
 * compute either: the generator holds the sequence of integer draws and the
 * sequence of comparison outcomes ("coins") it will hand out, in order.
 * Both sequences are finite, so a run can exhaust them; a draw from an
 * empty sequence yields `None`.
 */
module Rng {
  import opened Outcomes

  /** A result of `nextInt(9)`. */
  type Draw9 = x: int | 0 <= x < 9

  /** What is left to draw: the pending integers and the pending coin outcomes. */
  datatype Draws = Draws(ints: seq<Draw9>, coins: seq<bool>)

  class Random {
    var ints: seq<Draw9>
    var coins: seq<bool>

    /** A generator that will hand out `ints` and `coins`, each in order. */
    constructor (ints: seq<Draw9>, coins: seq<bool>)
      ensures this.ints == ints && this.coins == coins
    {
      this.ints := ints;
      this.coins := coins;
    }

    /** The draws still pending. */
    function State(): (d: Draws)
      reads this
      ensures d.ints == ints && d.coins == coins
    {
      Draws(ints, coins)
    }

    /** `nextInt(9)`: the next integer draw, which is consumed; the coins are untouched. */
    method NextInt9() returns (v: Option<Draw9>)
      modifies this
      ensures old(ints) == [] ==> v == None && ints == []
      ensures old(ints) != [] ==> v == Some(old(ints)[0]) && ints == old(ints)[1..]
      ensures coins == old(coins)
    {
      if ints == [] {
        v := None;
      } else {
        v := Some(ints[0]);
        ints := ints[1..];
      }
    }

    /** `nextDouble() < chance`: the next coin outcome, which is consumed; the integers are untouched. */
    method NextCoin() returns (b: Option<bool>)
      modifies this
      ensures old(coins) == [] ==> b == None && coins == []
      ensures old(coins) != [] ==> b == Some(old(coins)[0]) && coins == old(coins)[1..]
      ensures ints == old(ints)
    {
      if coins == [] {
        b := None;
      } else {
        b := Some(coins[0]);
        coins := coins[1..];
      }
    }
  }
}
